=== FILE: README.md ===
# File management core: archive selection, upload queue and file routes

This project models the pure logic inside a file-management front end and its two file
API routes:

- **the archive browser** (`zip-handler.tsx`): the archive's entry tree, the set of selected
  entry paths and the checkbox toggle that maintains it, the pre-order lookup of selected
  entries, the mock extraction of selected paths into named, typed files, the expanded
  directories, and the size label;
- **the upload section** (`file-upload-section.tsx`): the queue of files with their status
  (idle, uploading, success, error), adding files with archives diverted to the archive
  browser, removal, the upload run, the append of extracted files, and the icon chosen from
  a file's extension;
- **the upload route** (`app/api/files/upload/route.ts`): the missing-file guard, the
  timestamped storage name, the storage path and the metadata record;
- **the extraction route** (`app/api/files/extract-zip/route.ts`): the two 400 guards and one
  descriptor per requested path;
- **the file explorer** (`file-explorer.tsx`): the expansion map, the rename and delete
  dialogs, and the size label.

Everything is a pure function over immutable values. React state updates become functions
from the old state to the new one. Random ids (`crypto.randomUUID`), the clock
(`Date.now`) and the user id are parameters.

Modules, one per concern:

| module | file | models |
|---|---|---|
| `Types` | `types.dfy` | optional values, HTTP error answers, the browser `File` record |
| `Seqs` | `seqs.dfy` | order-preserving `filter` |
| `Strings` | `strings.dfy` | the JavaScript string operations used: `split` on one character with `pop()` and `[0]`, `lastIndexOf`, `substring`, ASCII `toLowerCase`, `trim`, and decimal rendering of integers |
| `Sizes` | `sizes.dfy` | `formatFileSize`, shared by the explorer and the archive browser |
| `Expansion` | `expansion.dfy` | `toggleFolder` on a `Record<string, boolean>`, shared by the explorer and the archive browser |
| `ZipSelection` | `zip_selection.dfy` | the archive browser |
| `UploadQueue` | `upload_queue.dfy` | the upload section |
| `StoragePaths` | `storage_paths.dfy` | `${userId}/${folderId \|\| "root"}/${name}`, used by both routes |
| `UploadRoute` | `upload_route.dfy` | the upload route |
| `ExtractRoute` | `extract_route.dfy` | the extraction route |
| `Explorer` | `explorer.dfy` | the file explorer |

## Behaviour of the code worth knowing

- There is no tree builder. The archive listing is hard-coded mock data, so the tree is an
  input here.
- Selecting a directory adds only the directory's own path (`ToggleSelectEntry`).
  Deselecting cascades, by a prefix test on `path + "/"`.
- Toggling accepts any path, including one that names no entry of the listing.
- Extraction takes the selected paths in selection order and names each file by the path's
  last segment. It keeps no directory prefix.
- Content types: the archive browser knows `.json` and `.md` and falls back to `text/plain`.
  The extraction route knows only `.json`.
- A selected directory is extracted as a file (see "## Findings").

The selection is a JavaScript `Set`, which iterates in insertion order, and that order
decides the order of the extracted files. The model therefore represents the selection as
a duplicate-free sequence: adding appends, and deleting keeps the other members in order.

## Model

| member | source | states |
|---|---|---|
| ZipSelection.ToggleSelectEntry | components/file-management/zip-handler.tsx:141-160 | Toggling a selected path removes exactly the members it covers: the path itself and, for a directory, every member beginning with `path + "/"`. Toggling an unselected path, file or directory, appends just that path with no cascade. Toggling a selected file removes only that path. The selection stays duplicate-free. |
| ZipSelection.RemoveCovered | components/file-management/zip-handler.tsx:144-154 | Deleting keeps exactly the members the path does not cover. It leaves the selection unchanged when nothing is covered, and keeps it duplicate-free. |
| ZipSelection.RemoveCoveredAppend | components/file-management/zip-handler.tsx:149-153 | Deletion works element by element, so the surviving members keep their relative order. |
| ZipSelection.ToggleFileTwice | components/file-management/zip-handler.tsx:141-160 | Toggling a file twice restores the set of selected paths. When the file was unselected, it restores the selection exactly, order included. |
| ZipSelection.DeselectKeepsSiblingWithSharedPrefix | components/file-management/zip-handler.tsx:150 | Deselecting directory `src` from `src, src/index.ts, src-backup/file.ts` leaves exactly `src-backup/file.ts`. |
| ZipSelection.SubtreePathsExtend | components/file-management/zip-handler.tsx:11-17 | In a listing whose child paths extend their parent's path by `/` and their name, every entry below a set of entries has a path with their common prefix. |
| ZipSelection.DeselectDirectoryClearsSubtree | components/file-management/zip-handler.tsx:147-154 | Deselecting a selected directory of such a listing removes the directory and the path of every entry below it. |
| ZipSelection.FindSelectedEntries | components/file-management/zip-handler.tsx:117-132 | Returns an entry iff it occurs in the listing and its path is selected. Selected paths that name no entry contribute nothing. |
| ZipSelection.FindSelectedIsFilteredPreOrder | components/file-management/zip-handler.tsx:117-132 | The result is exactly the pre-order listing (parent before children, siblings in order) filtered by selection. |
| ZipSelection.MimeForName | components/file-management/zip-handler.tsx:100 | `application/json` iff the name ends in `.json`, else `text/markdown` iff it ends in `.md`, else `text/plain`. |
| ZipSelection.ExtractFilesAppend | components/file-management/zip-handler.tsx:94-102 | Extraction works path by path: extracting a concatenated selection concatenates the two parts' files. |
| ZipSelection.ExtractFiles | components/file-management/zip-handler.tsx:94-102 | Extraction yields exactly one file per selected path not ending in `/`, in selection order, and every file comes from such a path. A file's name is the path's last `/` segment, contains no `/`, and its type follows the name's suffix. |
| ZipSelection.DirectoryExtractedAsFile | components/file-management/zip-handler.tsx:94-95 | Selecting the directory `src` and extracting yields a plain-text file named `src`. |
| ZipSelection.ExtractSelectedFiles | components/file-management/zip-handler.tsx:94-102 | Corrected extraction: every file comes from a selected file entry of the listing whose path does not end in `/`, so a directory yields none. Every selected file entry whose path does not end in `/` yields its file. Files follow selection order (`ExtractSelectedFilesAppend`). |
| ZipSelection.ExtractSelectedFilesAppend | components/file-management/zip-handler.tsx:94-102 | The corrected extraction of a concatenated selection is the extraction of the first part followed by that of the second, so files follow selection order whatever mix of directories and files is selected. |
| ZipSelection.SelectedDirectoryNotExtracted | components/file-management/zip-handler.tsx:94-95 | With the corrected extraction, a selected directory `src` yields no file. |
| ZipSelection.CorrectionAgreesOnFileSelections | components/file-management/zip-handler.tsx:94-102 | When every selected path names a file entry of the listing, the corrected extraction equals the extraction as written, as a sequence (same files, same order). |
| ZipSelection.ExtractSelection | components/file-management/zip-handler.tsx:84-115 | "Extract Selected" hands over exactly the listing's entries whose path is selected, in pre-order. Its files come only from selected file entries, one for each such entry not ending in `/`. When only file paths are selected they equal the as-written files in selection order. |
| ZipSelection.ClearSelection | components/file-management/zip-handler.tsx:269-276 | Clearing empties the selection, disables the clear and extract buttons, extracts nothing, and leaves the listing, expansion and extraction flag alone. |
| ZipSelection.ToggleEntry | components/file-management/zip-handler.tsx:141-229 | A checkbox click toggles the clicked entry's path. When it was selected, exactly the members it covers are removed: the path and, for a directory, every member under `path + "/"`. Otherwise the path is appended. Selecting enables clearing, and enables extraction unless one is running. When the click removes every member, both buttons become disabled (lines 273, 298). The selection stays duplicate-free. |
| ZipSelection.ToggleDirectory | components/file-management/zip-handler.tsx:134-139 | A chevron click flips how that directory reads (expanded or not). Every other directory reads as before, and the selection, listing and extraction flag are unchanged. |
| ZipSelection.FormatEntrySize | components/file-management/zip-handler.tsx:162-167 | The label is empty iff the size is undefined. Otherwise it ends in `" B"`, `" KB"` or `" MB"` iff the size is below 1024, in [1024, 1048576), or at least 1048576, respectively. |
| Expansion.ToggleFolder | components/file-management/file-explorer.tsx:84-89 | The key is set to the negation of its reading, so a missing key becomes true. The key set grows by at most that key, and every other key keeps its value. |
| Expansion.ToggleTwiceRestoresReading | components/file-management/file-explorer.tsx:84-89 | Toggling a key twice restores how every key reads. |
| Sizes.FormatFileSize | components/file-management/file-explorer.tsx:137-141 | The label ends in `" B"` iff the size is below 1024, in `" KB"` iff it is below 1048576, otherwise in `" MB"`. Below 1024 the label is the byte count's decimal rendering, without leading zeros, followed by `" B"`, and the digits read back as exactly the byte count. |
| Sizes.Tenths | components/file-management/file-explorer.tsx:139-140 | The shown tenths are the nearest to `bytes / unit`, the larger one on a tie, as `toFixed(1)` rounds. |
| Sizes.OneDecimalReadsBack | components/file-management/file-explorer.tsx:139-140 | The one-decimal text is the integer part, a dot and one digit, and it reads back as the count of tenths. |
| Sizes.MediumSizeInKilobytes | components/file-management/file-explorer.tsx:139 | Between 1024 and 1048575 bytes the label is some nearest-tenth kilobyte count followed by `" KB"`. |
| Sizes.LastKilobyteRoundsUp | components/file-management/file-explorer.tsx:139 | 1048575 bytes takes the kilobyte branch but rounds to 10240 tenths, so it reads `1024.0 KB`. |
| UploadQueue.Enqueue | components/file-management/file-upload-section.tsx:47-54 | Every non-archive input is queued as idle, at progress 0, with its id. No archive is queued, and every queued entry comes from an input. |
| UploadQueue.EnqueueAppend | components/file-management/file-upload-section.tsx:47-56 | Queuing works input by input, so queued entries keep the input order. |
| UploadQueue.LastZip | components/file-management/file-upload-section.tsx:38-44 | With no archive among the inputs, the pending archive is unchanged. Otherwise it is the last input that is an archive (MIME `application/zip` or a name ending in `.zip`). |
| UploadQueue.AddFiles | components/file-management/file-upload-section.tsx:46-57 | The old queue is an unchanged prefix. The appended part is exactly the queued non-archive inputs in input order, each idle at progress 0. The pending archive is the last archive input. Fresh ids keep queue ids distinct. |
| UploadQueue.EnqueueIdsUnique | components/file-management/file-upload-section.tsx:53 | Queuing with fresh, pairwise distinct ids keeps every id in the queue distinct. |
| UploadQueue.RemoveFile | components/file-management/file-upload-section.tsx:77-79 | The result holds exactly the entries whose id differs from the removed one. It is unchanged when no entry has that id. |
| UploadQueue.RemoveFileAppend | components/file-management/file-upload-section.tsx:78 | Removal keeps the relative order of the surviving entries. |
| UploadQueue.RemoveAddedRestores | components/file-management/file-upload-section.tsx:46-79 | Adding a non-archive file with a fresh id and then removing that id gives back the original queue. |
| UploadQueue.IdleEntries | components/file-management/file-upload-section.tsx:83-85 | The batch holds exactly the idle entries. It is empty iff the upload button is disabled, that is, no entry is idle. |
| UploadQueue.MarkUploading | components/file-management/file-upload-section.tsx:95 | An entry is uploading afterwards iff its id matches a batch entry or it was already uploading. File, id, progress and error are kept, and an entry outside the batch is unchanged. |
| UploadQueue.StartMovesOnlyIdle | components/file-management/file-upload-section.tsx:95 | With distinct ids, exactly the idle entries become uploading, and every other entry is untouched. |
| UploadQueue.Settled | components/file-management/file-upload-section.tsx:104-109 | A completed entry becomes success at progress 100 and keeps its error field. A failed one becomes error with message `Upload failed` and keeps its progress. Id and file are kept. |
| UploadQueue.SettleAdvancesStage | components/file-management/file-upload-section.tsx:98-111 | Settling one idle batch entry moves exactly that entry to its settled state. |
| UploadQueue.UploadFiles | components/file-management/file-upload-section.tsx:81-117 | With no idle entry, the queue is unchanged and the count is 0. Otherwise each idle entry settles (success at 100 unless it fails), every other entry is untouched, and the count is the number of idle entries. |
| UploadQueue.SettleBatch | components/file-management/file-upload-section.tsx:95-111 | With a non-empty idle batch, each entry ends at its final state: settled if it was idle, untouched otherwise. |
| UploadQueue.SettleStep | components/file-management/file-upload-section.tsx:98-111 | Settling the next batch entry advances every queue entry by one stage of the run. |
| UploadQueue.SetProgress | components/file-management/file-upload-section.tsx:132 | Entries with the given id take the new progress and keep status, file, id and error. Every other entry is unchanged. |
| UploadQueue.AsBrowserFile | components/file-management/zip-handler.tsx:99-101 | An extracted file becomes a browser file with the same name and type, 12 bytes long. |
| UploadQueue.OnExtract | components/file-management/file-upload-section.tsx:264-275 | Every extracted file, archives included, is appended in order as idle at progress 0. The old queue is an unchanged prefix, the pending archive is cleared, and fresh ids keep queue ids distinct. |
| UploadQueue.AppendFreshUnique | components/file-management/file-upload-section.tsx:270-273 | Appending entries that carry fresh, pairwise distinct ids keeps every queue id distinct. |
| UploadQueue.CloseZipDialog | components/file-management/file-upload-section.tsx:276 | Closing the dialog clears the pending archive and keeps the queue. |
| UploadQueue.Extension | components/file-management/file-upload-section.tsx:156 | A name containing a dot gives its lower-cased suffix from the last dot, which starts with a dot and holds no other. A dot-less name gives the whole lower-cased name. |
| UploadQueue.ExtensionListsDisjoint | components/file-management/file-upload-section.tsx:139-162 | No extension is both a code and an archive extension. |
| UploadQueue.GetFileIcon | components/file-management/file-upload-section.tsx:137-168 | Code icon iff the extension is a code extension, archive icon iff it is an archive extension, plain icon iff neither. |
| StoragePaths.FolderSegment | app/api/files/upload/route.ts:26 | A missing or empty folder id gives `root`. Any other id gives itself. |
| StoragePaths.FolderField | app/api/files/upload/route.ts:48 | The metadata's folder id is undefined iff the field is missing or empty. Otherwise it is the field. |
| StoragePaths.StoragePathSegments | app/api/files/extract-zip/route.ts:44 | When no component holds a slash, the storage path splits back into user id, folder segment and file name. The file name is its last segment. |
| UploadRoute.TimestampedName | app/api/files/upload/route.ts:24-25 | The name is the first dot-segment, `-`, the timestamp, `.` and the last dot-segment. Its last dot-segment is the original's, and its first ends in the timestamp. A dot-less `N` gives `N-<ts>.N`. |
| UploadRoute.MiddleSegmentsDropped | app/api/files/upload/route.ts:24-25 | `B.M.E` (segments dot-free) is stored as `B-<ts>.E`. |
| UploadRoute.HandleUpload | app/api/files/upload/route.ts:18-51 | A missing file gives exactly the 400 `No file provided`. Otherwise the metadata keeps the original name, size and type, and the path is user id / folder or `root` / timestamped name. `folderId` is undefined iff not supplied or empty, and a supplied non-empty folder id is copied unchanged; the user id is recorded. |
| UploadRoute.StoredUnderTimestampedName | app/api/files/upload/route.ts:26 | With slash-free components, the stored path's last segment is the timestamped name. |
| ExtractRoute.RouteMime | app/api/files/extract-zip/route.ts:46 | `application/json` iff the path ends in `.json`, otherwise `text/plain`. |
| ExtractRoute.Describe | app/api/files/extract-zip/route.ts:42-49 | The name is the longest slash-free suffix of the path (its last `/` segment): it is all of the path or is preceded by `/`. The stored path is user id / folder or `root` / name. The type is JSON iff the path ends in `.json`. The user id is recorded; `folderId` is undefined iff not supplied or empty, and a supplied non-empty id is copied unchanged. |
| ExtractRoute.HandleExtract | app/api/files/extract-zip/route.ts:19-52 | A missing archive gives the first 400. A missing or empty path list gives the second. Otherwise there is one descriptor per path, in order. |
| ExtractRoute.SameNameSameStoragePath | app/api/files/extract-zip/route.ts:43-44 | Paths with the same last segment are stored at the same place: directories are flattened. |
| ExtractRoute.FlattenedPathsCollide | app/api/files/extract-zip/route.ts:44 | `src/a/index.ts` and `lib/index.ts` get the same stored path. |
| ExtractRoute.JsonSuffixInLastSegment | app/api/files/extract-zip/route.ts:46 | A path ends in `.json` iff its last segment does. |
| ExtractRoute.RouteAgreesOnJson | app/api/files/extract-zip/route.ts:46 | The route and the archive browser agree on which files are JSON. A file the browser types as Markdown is plain text to the route. |
| Explorer.InitialState | components/file-management/file-explorer.tsx:76-82 | Initially only folder `1` reads as expanded, nothing is selected, both dialogs are closed and the new name is empty. |
| Explorer.ToggleFolder | components/file-management/file-explorer.tsx:84-89 | The clicked folder's reading flips, every other folder's reading is unchanged, and the selection, both dialogs and the rename input are untouched. |
| Explorer.OpenRenameDialog | components/file-management/file-explorer.tsx:126-130 | The item becomes the target, its name pre-fills the input, and the rename dialog opens. |
| Explorer.OpenDeleteDialog | components/file-management/file-explorer.tsx:132-135 | The item becomes the target and the delete dialog opens. |
| Explorer.HandleRename | components/file-management/file-explorer.tsx:91-107 | Nothing changes iff no item is selected or the new name is all whitespace. Otherwise the selection is cleared, the dialog closes and the input empties. |
| Explorer.HandleDelete | components/file-management/file-explorer.tsx:109-124 | Nothing changes iff no item is selected. Otherwise the selection is cleared and the dialog closes. |
| Explorer.BlankRenameIsIgnored | components/file-management/file-explorer.tsx:92 | Renaming an item whose pre-filled name is all spaces changes nothing. |
| Strings.Split | components/file-management/zip-handler.tsx:97 | `split` on one character returns at least one part, no part holds the separator, and a separator-free string splits into itself. |
| Strings.JoinSplit | components/file-management/zip-handler.tsx:97 | Joining the parts of a split with the separator gives back the string. |
| Strings.SplitJoin | app/api/files/extract-zip/route.ts:44 | Splitting a join of separator-free parts gives back the parts. |
| Strings.LastSegment | components/file-management/zip-handler.tsx:97 | `split(sep).pop()` is the longest separator-free suffix: it is all of the string or is preceded by a separator. |
| Strings.FirstSegment | app/api/files/upload/route.ts:25 | `split(sep)[0]` is the longest separator-free prefix: it is all of the string or is followed by a separator. |
| Strings.LastIndexOf | components/file-management/file-upload-section.tsx:156 | The result is -1 iff the character is absent. Otherwise it is an index holding the character, with none after it. |
| Strings.TrimEmptyIffBlank | components/file-management/file-explorer.tsx:92 | `trim()` gives the empty string iff every character is ECMAScript whitespace or a line terminator. |
| Strings.ParseNatToString | app/api/files/upload/route.ts:25 | The decimal rendering of a timestamp reads back as the same number. |

## Findings

| source | as written | input that shows it | evidently intended | confidence | as-written member | corrected member |
|---|---|---|---|---|---|---|
| components/file-management/zip-handler.tsx:94-95 | Extraction drops only selected paths ending in `/`, but entry paths, directories included, never end in `/`. | Select directory `src` and extract: a plain-text file named `src` is created and queued for upload. | Directories are not extracted as files. | medium, not executed | ZipSelection.DirectoryExtractedAsFile | ZipSelection.ExtractSelectedFiles |

`ZipSelection.ExtractSelectedFiles` is the corrected extraction, and the browser's
`ZipSelection.ExtractSelection` uses it. It is the extraction as written, applied only to
the selected paths that name a file entry of the listing, so files keep their selection
order. `ZipSelection.SelectedDirectoryNotExtracted` shows the directory input from the table
yielding nothing. `ZipSelection.CorrectionAgreesOnFileSelections` shows that a selection of
file paths extracts exactly the same sequence of files as before.

## Left out

- Archive decoding: `analyzeZip` returns a hard-coded listing after a delay, so the listing is an input.
- Timers, `setTimeout` delays, loading flags and toasts. `UploadFiles` returns the count a toast would show.
- `simulateFileUpload`'s random progress increments and `setInterval`: `SetProgress` takes the reported value as a parameter. Whether an upload fails is a parameter (`failures`). In the source the simulated upload never fails.
- React batching and interleaving: `UploadFiles` runs against one queue snapshot, without removals or additions in between.
- UploadQueue.UploadFiles: requires distinct queue ids, which `crypto.randomUUID` provides and `AddFiles`/`OnExtract` preserve given fresh ids. With a duplicated id the source would also mark a non-idle entry.
- Random ids, random descriptor sizes (`Math.floor(Math.random() * 10000)`), and `createdAt`/`updatedAt` timestamps: left out of the records.
- The hard-coded user id `mock-user-id` is a parameter.
- JSON and form-data parsing: the path list arrives already parsed. A missing field and an empty string are both falsy and both give the same 400.
- A `500` answer for a thrown exception.
- Expansion.ToggleFolder: treats a key missing from the map as collapsed. In the source the map is a plain object literal, so a name inherited from `Object.prototype` (`constructor`, `toString`, `__proto__`) reads as truthy, and its first toggle stores `false`. The model does not include the inherited names, because folder ids and archive paths are not expected to collide with them. The same holds for every reading through `Expansion.IsExpanded`, including `Explorer.InitialState`.
- Strings.ToLower: lower-cases ASCII letters only. JavaScript's `toLowerCase` also lower-cases other scripts, which the code extension lists never contain.
- Sizes.FormatFileSize: assumes byte counts below 2^53, where the quotient `toFixed` rounds is exact.
- Drag-and-drop flags, search input, icons for statuses, dialogs' open/close by overlay, and all rendering.
- The GitHub connector, GitHub service and import route, the persistence stubs in `lib/file-service.ts`, the code preview and the pages: mocked network and storage calls with no logic of their own.

=== FILE: expansion.dfy ===
/** The open/closed state of the collapsible folders, shared by the file explorer (keyed by
    folder id) and the archive browser (keyed by entry path): a map from key to flag in which
    a missing key reads as collapsed. */
module Expansion {

  type ExpansionMap = map<string, bool>

  /** `expandedFolders[key] || false`: a key reads as expanded only when it maps to true. */
  predicate IsExpanded(m: ExpansionMap, key: string) {
    key in m && m[key]
  }

  /** `toggleFolder(key)`: writes the negation of the key's current reading, so a missing
      key becomes true, and copies every other entry. */
  function ToggleFolder(m: ExpansionMap, key: string): (r: ExpansionMap)
    ensures key in r && r[key] == !IsExpanded(m, key)
    ensures r.Keys == m.Keys + {key}
    ensures forall k :: k in m && k != key ==> r[k] == m[k]
    ensures IsExpanded(r, key) <==> !IsExpanded(m, key)
    ensures forall k :: k != key ==> (IsExpanded(r, k) <==> IsExpanded(m, k))
  {
    m[key := !IsExpanded(m, key)]
  }

  /** Toggling the same folder twice restores how every folder reads. */
  lemma ToggleTwiceRestoresReading(m: ExpansionMap, key: string, k: string)
    ensures IsExpanded(ToggleFolder(ToggleFolder(m, key), key), k) <==> IsExpanded(m, k)
  {
  }
}

=== FILE: explorer.dfy ===
/** The file explorer: the folders that are expanded, and the rename and delete dialogs with
    the item they act on. Renaming and deleting only log a message in the source; the
    folder tree itself never changes, so it is not part of this state. */
module Explorer {
  import opened Types
  import opened Strings
  import Expansion

  datatype ItemKind = FileItem | FolderItem

  /** The item a dialog acts on: its kind and its name. */
  datatype SelectedItem = SelectedItem(kind: ItemKind, name: string)

  datatype ExplorerState = ExplorerState(
    expanded: Expansion.ExpansionMap,
    selected: Option<SelectedItem>,
    renameOpen: bool,
    deleteOpen: bool,
    newName: string)

  /** The state on first render: only folder `1` (Project A) is expanded, nothing is
      selected and both dialogs are closed. */
  function InitialState(): (s: ExplorerState)
    ensures forall id :: Expansion.IsExpanded(s.expanded, id) <==> id == "1"
    ensures s.selected.None? && !s.renameOpen && !s.deleteOpen && s.newName == ""
  {
    ExplorerState(map["1" := true], None, false, false, "")
  }

  /** A click on a folder's chevron. */
  function ToggleFolder(s: ExplorerState, folderId: string): (r: ExplorerState)
    ensures Expansion.IsExpanded(r.expanded, folderId) <==> !Expansion.IsExpanded(s.expanded, folderId)
    ensures forall id :: id != folderId ==>
              (Expansion.IsExpanded(r.expanded, id) <==> Expansion.IsExpanded(s.expanded, id))
    ensures r.selected == s.selected && r.renameOpen == s.renameOpen && r.deleteOpen == s.deleteOpen
    ensures r.newName == s.newName
  {
    s.(expanded := Expansion.ToggleFolder(s.expanded, folderId))
  }

  /** `openRenameDialog(type, item)`: the item becomes the target, its name pre-fills the
      input, and the rename dialog opens. */
  function OpenRenameDialog(s: ExplorerState, item: SelectedItem): (r: ExplorerState)
    ensures r.selected == Some(item) && r.newName == item.name && r.renameOpen
    ensures r.expanded == s.expanded && r.deleteOpen == s.deleteOpen
  {
    s.(selected := Some(item), newName := item.name, renameOpen := true)
  }

  /** `openDeleteDialog(type, item)`: the item becomes the target and the delete dialog
      opens. */
  function OpenDeleteDialog(s: ExplorerState, item: SelectedItem): (r: ExplorerState)
    ensures r.selected == Some(item) && r.deleteOpen
    ensures r.expanded == s.expanded && r.renameOpen == s.renameOpen && r.newName == s.newName
  {
    s.(selected := Some(item), deleteOpen := true)
  }

  /** `handleRename()`: nothing happens when no item is selected or the new name is blank
      after trimming; otherwise the dialog closes, the input is cleared and the selection is
      dropped. */
  function HandleRename(s: ExplorerState): (r: ExplorerState)
    ensures r == s <==> s.selected.None? || forall i :: 0 <= i < |s.newName| ==> IsTrimmable(s.newName[i])
    ensures r != s ==> r.selected.None? && !r.renameOpen && r.newName == ""
    ensures r.expanded == s.expanded && r.deleteOpen == s.deleteOpen
  {
    TrimEmptyIffBlank(s.newName);
    if s.selected.None? || Trim(s.newName) == "" then s
    else s.(renameOpen := false, newName := "", selected := None)
  }

  /** `handleDelete()`: nothing happens when no item is selected; otherwise the dialog
      closes and the selection is dropped. */
  function HandleDelete(s: ExplorerState): (r: ExplorerState)
    ensures r == s <==> s.selected.None?
    ensures s.selected.Some? ==> r.selected.None? && !r.deleteOpen
    ensures r.expanded == s.expanded && r.renameOpen == s.renameOpen && r.newName == s.newName
  {
    if s.selected.None? then s else s.(deleteOpen := false, selected := None)
  }

  /** Renaming to a name made only of spaces after opening the dialog changes nothing. */
  lemma BlankRenameIsIgnored(s: ExplorerState, item: SelectedItem)
    requires forall i :: 0 <= i < |item.name| ==> item.name[i] == ' '
    ensures var o := OpenRenameDialog(s, item);
            HandleRename(o) == o
  {
  }
}

=== FILE: extract_route.dfy ===
/** The archive-extraction route: validates the form and describes, for every requested
    path, the file it would store. The user id is a parameter; the random record id and
    size, the timestamps, the unpacking and the storage calls are not part of the model. */
module ExtractRoute {
  import opened Types
  import opened Strings
  import opened StoragePaths
  import ZipSelection

  /** The form fields the route reads. `extractPaths` is the parsed JSON list of paths;
      `None` stands for a field that is missing or empty, both of which are falsy. */
  datatype ExtractRequest = ExtractRequest(
    zipFile: Option<BrowserFile>,
    extractPaths: Option<seq<string>>,
    folderId: Option<string>)

  /** The description of one extracted file. */
  datatype FileDescriptor = FileDescriptor(
    name: string,
    path: string,
    mimeType: string,
    userId: string,
    folderId: Option<string>)

  const NoZipError := HttpError(400, "No zip file provided")
  const NoPathsError := HttpError(400, "No paths to extract provided")

  /** The route's type for a path: JSON when the path ends in `.json`, plain text
      otherwise. */
  function RouteMime(path: string): (m: string)
    ensures m == "application/json" <==> EndsWith(path, ".json")
    ensures m == "application/json" || m == "text/plain"
  {
    if EndsWith(path, ".json") then "application/json" else "text/plain"
  }

  /** The descriptor of one requested path: named by its last `/` segment and stored
      directly in the target folder under that name. */
  function Describe(path: string, userId: string, folderId: Option<string>): (d: FileDescriptor)
    ensures '/' !in d.name && EndsWith(path, d.name)
    ensures |d.name| == |path| || path[|path| - |d.name| - 1] == '/'
    ensures d.path == StoragePath(userId, folderId, d.name)
    ensures d.mimeType == "application/json" <==> EndsWith(path, ".json")
    ensures d.folderId.None? <==> folderId.None? || folderId.value == ""
    ensures folderId.Some? && folderId.value != "" ==> d.folderId == folderId
    ensures d.userId == userId
  {
    var name := LastSegment(path, '/');
    FileDescriptor(name, StoragePath(userId, folderId, name), RouteMime(path), userId, FolderField(folderId))
  }

  /** The route's answer: 400 without an archive, 400 without paths or with an empty list,
      otherwise one descriptor per requested path, in request order. */
  function HandleExtract(req: ExtractRequest, userId: string): (r: Result<seq<FileDescriptor>>)
    ensures req.zipFile.None? ==> r == Err(NoZipError)
    ensures req.zipFile.Some? && (req.extractPaths.None? || |req.extractPaths.value| == 0) ==> r == Err(NoPathsError)
    ensures r.Ok? <==> req.zipFile.Some? && req.extractPaths.Some? && |req.extractPaths.value| > 0
    ensures r.Ok? ==>
              var paths := req.extractPaths.value;
              |r.value| == |paths|
              && forall i :: 0 <= i < |paths| ==> r.value[i] == Describe(paths[i], userId, req.folderId)
  {
    if req.zipFile.None? then Err(NoZipError)
    else if req.extractPaths.None? || |req.extractPaths.value| == 0 then Err(NoPathsError)
    else
      var paths := req.extractPaths.value;
      Ok(seq(|paths|, i requires 0 <= i < |paths| => Describe(paths[i], userId, req.folderId)))
  }

  /** Directories are flattened: two requested paths with the same last segment are stored
      at the same place, whatever directories they came from. */
  lemma SameNameSameStoragePath(p: string, q: string, userId: string, folderId: Option<string>)
    requires LastSegment(p, '/') == LastSegment(q, '/')
    ensures Describe(p, userId, folderId).path == Describe(q, userId, folderId).path
  {
  }

  /** Flattening in an example: `src/a/index.ts` and `lib/index.ts` collide. */
  lemma FlattenedPathsCollide(userId: string)
    ensures Describe("src/a/index.ts", userId, None).path == Describe("lib/index.ts", userId, None).path
  {
    var p, q := "src/a/index.ts", "lib/index.ts";
    assert p[6..] == "index.ts" && q[4..] == "index.ts";
    LastSegmentAt(p, '/', 5);
    LastSegmentAt(q, '/', 3);
  }

  /** A path ends in `.json` exactly when its last segment does, because `.json` holds no
      slash; so the route and the archive browser agree on which files are JSON. */
  lemma {:induction false} JsonSuffixInLastSegment(path: string)
    ensures EndsWith(path, ".json") <==> EndsWith(LastSegment(path, '/'), ".json")
  {
    var name := LastSegment(path, '/');
    var n := |path| - |name|;
    assert name == path[n..];
    if EndsWith(path, ".json") {
      assert path[|path| - 5..] == ".json";
      assert |name| >= 5;
    }
  }

  /** The route and the archive browser give the same file the JSON type, and disagree on
      Markdown: the route types every non-JSON path as plain text. */
  lemma RouteAgreesOnJson(path: string, userId: string, folderId: Option<string>)
    ensures var d := Describe(path, userId, folderId);
            d.mimeType == "application/json"
            <==> ZipSelection.Extracted(path).mimeType == "application/json"
    ensures var d := Describe(path, userId, folderId);
            ZipSelection.Extracted(path).mimeType == "text/markdown" ==> d.mimeType == "text/plain"
  {
    JsonSuffixInLastSegment(path);
  }
}

=== FILE: seqs.dfy ===
/** Order-preserving filtering of sequences (`Array.prototype.filter`). */
module Seqs {

  /** The elements of `xs` that `keep` accepts, in their original order. */
  function Filter<T(!new)>(xs: seq<T>, keep: T -> bool): (r: seq<T>)
    ensures |r| <= |xs|
    ensures forall x :: x in r <==> x in xs && keep(x)
    ensures (forall i :: 0 <= i < |xs| ==> keep(xs[i])) ==> r == xs
    decreases |xs|
  {
    if |xs| == 0 then []
    else if keep(xs[0]) then [xs[0]] + Filter(xs[1..], keep)
    else Filter(xs[1..], keep)
  }

  /** Filtering a concatenation filters each part. */
  lemma {:induction false} FilterAppend<T(!new)>(a: seq<T>, b: seq<T>, keep: T -> bool)
    ensures Filter(a + b, keep) == Filter(a, keep) + Filter(b, keep)
    decreases |a|
  {
    if |a| > 0 {
      assert (a + b)[0] == a[0];
      assert (a + b)[1..] == a[1..] + b;
      FilterAppend(a[1..], b, keep);
    } else {
      assert a + b == b;
    }
  }

  /** No element occurs twice. */
  predicate Distinct<T(==)>(xs: seq<T>) {
    forall i, j :: 0 <= i < j < |xs| ==> xs[i] != xs[j]
  }

  /** Filtering a duplicate-free sequence leaves it duplicate-free. */
  lemma {:induction false} FilterDistinct<T(!new)>(xs: seq<T>, keep: T -> bool)
    requires Distinct(xs)
    ensures Distinct(Filter(xs, keep))
    decreases |xs|
  {
    if |xs| > 0 {
      var rest := Filter(xs[1..], keep);
      assert Distinct(xs[1..]) by {
        forall i, j | 0 <= i < j < |xs| - 1 ensures xs[1..][i] != xs[1..][j] {
          assert xs[1..][i] == xs[i + 1] && xs[1..][j] == xs[j + 1];
        }
      }
      FilterDistinct(xs[1..], keep);
      if keep(xs[0]) {
        assert xs[0] !in xs[1..] by {
          forall k | 0 <= k < |xs| - 1 ensures xs[1..][k] != xs[0] {
            assert xs[1..][k] == xs[k + 1];
          }
        }
        assert xs[0] !in rest;
        var r := [xs[0]] + rest;
        forall i, j | 0 <= i < j < |r| ensures r[i] != r[j] {
          if i == 0 {
            assert r[j] == rest[j - 1];
          } else {
            assert r[i] == rest[i - 1] && r[j] == rest[j - 1];
          }
        }
      }
    }
  }
}

=== FILE: sizes.dfy ===
/** The human-readable byte count shown next to every file in the explorer and in the archive
    browser (`formatFileSize`): whole bytes below 1024, otherwise kilobytes below 1024 * 1024,
    otherwise megabytes, the last two with one decimal place. */
module Sizes {
  import opened Strings

  const KiB: nat := 1024
  const MiB: nat := 1024 * 1024

  /** The unit `formatFileSize` picks for a byte count. */
  datatype SizeUnit = Bytes | Kilobytes | Megabytes

  function UnitFor(bytes: nat): SizeUnit {
    if bytes < KiB then Bytes else if bytes < MiB then Kilobytes else Megabytes
  }

  /** The integer `t` for which `t / 10` is nearest to `bytes / unit`, the larger one on a tie:
      the digits `(bytes / unit).toFixed(1)` shows. Division by a power of two is exact in
      binary floating point, so the quotient `toFixed` rounds is the exact rational. */
  function Tenths(bytes: nat, unit: nat): (t: nat)
    requires unit > 0 && unit % 2 == 0
    ensures 20 * bytes - unit < 2 * t * unit <= 20 * bytes + unit
  {
    var t := (10 * bytes + unit / 2) / unit;
    assert t * unit <= 10 * bytes + unit / 2 < t * unit + unit;
    t
  }

  /** A count of tenths written with one decimal place, as `toFixed(1)` does. */
  function OneDecimal(t: nat): string {
    NatToString(t / 10) + "." + [DigitChar(t % 10)]
  }

  /** The one-decimal text reads back as the same count of tenths. */
  lemma {:induction false} OneDecimalReadsBack(t: nat)
    ensures var s := OneDecimal(t); var w := NatToString(t / 10);
            |s| == |w| + 2 && s[..|w|] == w && s[|w|] == '.'
            && ParseDecimal(s[..|w|]) * 10 + DigitValue(s[|w| + 1]) == t
  {
    var s, w := OneDecimal(t), NatToString(t / 10);
    assert s[..|w|] == w;
    ParseNatToString(t / 10);
  }

  /** `formatFileSize(bytes)`. */
  function FormatFileSize(bytes: nat): (r: string)
    ensures UnitFor(bytes) == Bytes <==> EndsWith(r, " B")
    ensures UnitFor(bytes) == Kilobytes <==> EndsWith(r, " KB")
    ensures UnitFor(bytes) == Megabytes <==> EndsWith(r, " MB")
    ensures bytes < KiB ==> |r| >= 3 && (forall i :: 0 <= i < |r| - 2 ==> IsDigit(r[i]))
                            && ParseDecimal(r[..|r| - 2]) == bytes
    ensures bytes < KiB ==> r == NatToString(bytes) + " B" && (|r| > 3 ==> r[0] != '0')
  {
    if bytes < KiB then
      ParseNatToString(bytes);
      var r := NatToString(bytes) + " B";
      assert r[..|r| - 2] == NatToString(bytes);
      r
    else if bytes < MiB then
      var r := OneDecimal(Tenths(bytes, KiB)) + " KB";
      assert r[|r| - 2] == 'K' && r[|r| - 3..] == " KB";
      r
    else
      var r := OneDecimal(Tenths(bytes, MiB)) + " MB";
      assert r[|r| - 2] == 'M' && r[|r| - 3..] == " MB";
      r
  }

  /** Between one kilobyte and one megabyte the text is the count of kilobytes rounded to
      the nearest tenth, with one decimal place. */
  lemma {:induction false} MediumSizeInKilobytes(bytes: nat)
    requires KiB <= bytes < MiB
    ensures exists t: nat :: FormatFileSize(bytes) == OneDecimal(t) + " KB"
                          && 20 * bytes - KiB < 2 * t * KiB <= 20 * bytes + KiB
  {
    var t := Tenths(bytes, KiB);
    assert FormatFileSize(bytes) == OneDecimal(t) + " KB";
  }

  /** Rounding lets the kilobyte branch show a value of 1024: one byte short of a megabyte
      reads `"1024.0 KB"`. */
  lemma LastKilobyteRoundsUp()
    ensures Tenths(MiB - 1, KiB) == 10240
    ensures UnitFor(MiB - 1) == Kilobytes
  {
  }
}

=== FILE: storage_paths.dfy ===
/** The storage location both file routes build for a stored file,
    `${userId}/${folderId || "root"}/${fileName}`, and the `folderId || undefined` field of
    the metadata they return. */
module StoragePaths {
  import opened Types
  import opened Strings

  /** `folderId || "root"`: a missing or empty folder id (both falsy) selects `root`. */
  function FolderSegment(folderId: Option<string>): (seg: string)
    ensures seg == "root" <==> folderId.None? || folderId.value == "" || folderId.value == "root"
    ensures folderId.Some? && folderId.value != "" ==> seg == folderId.value
  {
    match folderId
    case Some(id) => if id == "" then "root" else id
    case None => "root"
  }

  /** `folderId || undefined`: the folder id only when it is present and non-empty. */
  function FolderField(folderId: Option<string>): (r: Option<string>)
    ensures r.None? <==> folderId.None? || folderId.value == ""
    ensures r.Some? ==> r == folderId
  {
    if folderId.Some? && folderId.value != "" then folderId else None
  }

  /** The storage path of `fileName` in a user's folder. */
  function StoragePath(userId: string, folderId: Option<string>, fileName: string): string {
    userId + "/" + FolderSegment(folderId) + "/" + fileName
  }

  /** When no component contains a slash, the storage path splits back into the user id,
      the folder segment and the file name, so the file name is its last segment. */
  lemma StoragePathSegments(userId: string, folderId: Option<string>, fileName: string)
    requires '/' !in userId && '/' !in FolderSegment(folderId) && '/' !in fileName
    ensures Split(StoragePath(userId, folderId, fileName), '/') == [userId, FolderSegment(folderId), fileName]
    ensures LastSegment(StoragePath(userId, folderId, fileName), '/') == fileName
  {
    var parts := [userId, FolderSegment(folderId), fileName];
    var folder := FolderSegment(folderId);
    assert Join(parts, '/') == StoragePath(userId, folderId, fileName) by {
      assert parts[1..] == [folder, fileName];
      assert [folder, fileName][1..] == [fileName];
      assert Join([fileName], '/') == fileName;
      assert Join([folder, fileName], '/') == folder + "/" + fileName;
      assert Join(parts, '/') == userId + "/" + (folder + "/" + fileName);
    }
    SplitJoin(parts, '/');
  }
}

=== FILE: strings.dfy ===
/** The JavaScript string operations the file-management code relies on, over `seq<char>`:
    `startsWith`, `endsWith`, `split` on one character, `lastIndexOf`, `substring`,
    `toLowerCase`, `trim`, and the decimal rendering of a non-negative integer in a
    template literal. */
module Strings {

  /** `s.startsWith(prefix)`. */
  predicate StartsWith(s: string, prefix: string) {
    prefix <= s
  }

  /** `s.endsWith(suffix)`. */
  predicate EndsWith(s: string, suffix: string) {
    |suffix| <= |s| && s[|s| - |suffix|..] == suffix
  }

  // ---------------------------------------------------------------------------
  // split / join
  // ---------------------------------------------------------------------------

  /** `s.split(sep)` for a one-character separator: the maximal separator-free runs of `s`,
      so there is always at least one part, and `""` splits into `[""]`. */
  function Split(s: string, sep: char): (parts: seq<string>)
    ensures |parts| >= 1
    ensures forall i :: 0 <= i < |parts| ==> sep !in parts[i]
    ensures sep !in s ==> parts == [s]
    decreases |s|
  {
    if |s| == 0 then [""]
    else if s[0] == sep then [""] + Split(s[1..], sep)
    else
      var rest := Split(s[1..], sep);
      assert s == [s[0]] + s[1..];
      [[s[0]] + rest[0]] + rest[1..]
  }

  /** `parts.join(sep)` for a non-empty list of parts. */
  function Join(parts: seq<string>, sep: char): string
    requires |parts| >= 1
    decreases |parts|
  {
    if |parts| == 1 then parts[0] else parts[0] + [sep] + Join(parts[1..], sep)
  }

  /** Joining the parts of a split gives back the original string. */
  lemma {:induction false} JoinSplit(s: string, sep: char)
    ensures Join(Split(s, sep), sep) == s
    decreases |s|
  {
    if |s| > 0 {
      var rest := Split(s[1..], sep);
      JoinSplit(s[1..], sep);
      assert Join(rest, sep) == s[1..];
      assert s == [s[0]] + s[1..];
      if s[0] == sep {
        var parts := [""] + rest;
        assert Split(s, sep) == parts;
        assert parts[1..] == rest;
        assert Join(parts, sep) == "" + [sep] + Join(rest, sep);
      } else {
        var parts := [[s[0]] + rest[0]] + rest[1..];
        assert Split(s, sep) == parts;
        if |rest| == 1 {
          assert Join(parts, sep) == [s[0]] + rest[0];
        } else {
          assert parts[1..] == rest[1..];
          assert Join(rest, sep) == rest[0] + [sep] + Join(rest[1..], sep);
          assert Join(parts, sep) == [s[0]] + rest[0] + [sep] + Join(rest[1..], sep);
        }
      }
    }
  }

  /** A separator-free head splits off as the first part. */
  lemma {:induction false} SplitAppend(a: string, sep: char, b: string)
    requires sep !in a
    ensures Split(a + [sep] + b, sep) == [a] + Split(b, sep)
    decreases |a|
  {
    if |a| == 0 {
      assert a + [sep] + b == [sep] + b;
      assert ([sep] + b)[1..] == b;
    } else {
      var s := a + [sep] + b;
      assert s[0] == a[0];
      assert s[1..] == a[1..] + [sep] + b;
      SplitAppend(a[1..], sep, b);
      var rest := Split(s[1..], sep);
      assert rest == [a[1..]] + Split(b, sep);
      assert rest[0] == a[1..] && rest[1..] == Split(b, sep);
      assert Split(s, sep) == [[a[0]] + rest[0]] + rest[1..];
      assert [a[0]] + a[1..] == a;
    }
  }

  /** Splitting a join of separator-free parts gives back the parts. */
  lemma {:induction false} SplitJoin(parts: seq<string>, sep: char)
    requires |parts| >= 1
    requires forall i :: 0 <= i < |parts| ==> sep !in parts[i]
    ensures Split(Join(parts, sep), sep) == parts
    decreases |parts|
  {
    if |parts| > 1 {
      SplitJoin(parts[1..], sep);
      SplitAppend(parts[0], sep, Join(parts[1..], sep));
      assert [parts[0]] + parts[1..] == parts;
    }
  }

  /** The last part of a join is a suffix of it, either the whole string or preceded by a
      separator. */
  lemma {:induction false} JoinEndsWithLast(parts: seq<string>, sep: char)
    requires |parts| >= 1
    ensures var s, last := Join(parts, sep), parts[|parts| - 1];
            EndsWith(s, last) && (|last| == |s| || s[|s| - |last| - 1] == sep)
    decreases |parts|
  {
    if |parts| > 1 {
      var tail := parts[1..];
      JoinEndsWithLast(tail, sep);
      var s, t, last := Join(parts, sep), Join(tail, sep), parts[|parts| - 1];
      assert last == tail[|tail| - 1];
      assert s == parts[0] + [sep] + t;
      assert s[|s| - |t|..] == t;
      assert s[|s| - |last|..] == t[|t| - |last|..];
      if |last| == |t| {
        assert s[|s| - |last| - 1] == sep;
      } else {
        assert s[|s| - |last| - 1] == t[|t| - |last| - 1];
      }
    }
  }

  // ---------------------------------------------------------------------------
  // first and last segments
  // ---------------------------------------------------------------------------

  /** `s.split(sep).pop()`: the last separator-free segment of `s`. It is the longest
      separator-free suffix: it is all of `s` or is preceded by a separator. */
  function LastSegment(s: string, sep: char): (r: string)
    ensures sep !in r
    ensures EndsWith(s, r)
    ensures |r| == |s| || s[|s| - |r| - 1] == sep
    ensures sep !in s ==> r == s
  {
    var parts := Split(s, sep);
    JoinSplit(s, sep);
    JoinEndsWithLast(parts, sep);
    parts[|parts| - 1]
  }

  /** `s.split(sep)[0]`: the first separator-free segment of `s`. It is the longest
      separator-free prefix: it is all of `s` or is followed by a separator. */
  function FirstSegment(s: string, sep: char): (r: string)
    ensures sep !in r
    ensures StartsWith(s, r)
    ensures |r| == |s| || s[|r|] == sep
    ensures sep !in s ==> r == s
  {
    var parts := Split(s, sep);
    JoinSplit(s, sep);
    parts[0]
  }

  /** The first segment is determined by the position of the first separator. */
  lemma FirstSegmentAt(s: string, sep: char, k: nat)
    requires k < |s| && s[k] == sep && sep !in s[..k]
    ensures FirstSegment(s, sep) == s[..k]
  {
    var r := FirstSegment(s, sep);
    assert r == s[..|r|];
  }

  /** The last segment is determined by the position of the last separator. */
  lemma LastSegmentAt(s: string, sep: char, k: nat)
    requires k < |s| && s[k] == sep && sep !in s[k + 1..]
    ensures LastSegment(s, sep) == s[k + 1..]
  {
    var r := LastSegment(s, sep);
    var n := |s| - |r|;
    assert r == s[n..];
  }

  /** `s.lastIndexOf(c)`: the greatest index holding `c`, or -1 when `c` does not occur. */
  function LastIndexOf(s: string, c: char): (r: int)
    ensures -1 <= r < |s|
    ensures r >= 0 ==> s[r] == c
    ensures r == -1 <==> c !in s
    ensures forall j :: r < j < |s| ==> s[j] != c
    decreases |s|
  {
    if |s| == 0 then -1
    else if s[|s| - 1] == c then |s| - 1
    else
      assert forall j :: 0 <= j < |s| - 1 ==> s[..|s| - 1][j] == s[j];
      LastIndexOf(s[..|s| - 1], c)
  }

  /** `s.substring(start)`: JavaScript clamps a negative start to 0 and a start past the
      end to the length. */
  function SubstringFrom(s: string, start: int): (r: string)
    ensures start <= 0 ==> r == s
    ensures 0 <= start <= |s| ==> |r| == |s| - start && EndsWith(s, r)
    ensures start >= |s| ==> r == ""
  {
    if start <= 0 then s else if start >= |s| then "" else s[start..]
  }

  // ---------------------------------------------------------------------------
  // case and whitespace
  // ---------------------------------------------------------------------------

  /** Lower-cases an ASCII capital letter; every other character is left alone. */
  function LowerChar(c: char): (d: char)
    ensures 'A' <= c <= 'Z' ==> 'a' <= d <= 'z'
    ensures !('A' <= c <= 'Z') ==> d == c
  {
    if 'A' <= c <= 'Z' then (c as int - 'A' as int + 'a' as int) as char else c
  }

  /** `s.toLowerCase()` restricted to ASCII letters. */
  function ToLower(s: string): (r: string)
    ensures |r| == |s|
    ensures forall i :: 0 <= i < |s| ==> r[i] == LowerChar(s[i])
  {
    seq(|s|, i requires 0 <= i < |s| => LowerChar(s[i]))
  }

  /** Lower-casing commutes with taking a suffix. */
  lemma ToLowerSuffix(s: string, k: nat)
    requires k <= |s|
    ensures ToLower(s[k..]) == ToLower(s)[k..]
  {
  }

  /** The characters `String.prototype.trim` strips: the ECMAScript WhiteSpace code points
      (tab, vertical tab, form feed, space, no-break space, the byte order mark and the
      Unicode space separators) and the LineTerminator code points. */
  predicate IsTrimmable(c: char) {
    || c == '\t' || c == '\U{000B}' || c == '\U{000C}' || c == ' ' || c == '\U{00A0}'
    || c == '\U{FEFF}' || c == '\U{1680}' || ('\U{2000}' <= c <= '\U{200A}')
    || c == '\U{202F}' || c == '\U{205F}' || c == '\U{3000}'
    || c == '\n' || c == '\r' || c == '\U{2028}' || c == '\U{2029}'
  }

  /** Drops leading trimmable characters. */
  function TrimStart(s: string): (r: string)
    ensures EndsWith(s, r)
    ensures forall i :: 0 <= i < |s| - |r| ==> IsTrimmable(s[i])
    ensures |r| == 0 || !IsTrimmable(r[0])
    decreases |s|
  {
    if |s| > 0 && IsTrimmable(s[0]) then
      var r := TrimStart(s[1..]);
      assert s[|s| - |r|..] == s[1..][|s| - 1 - |r|..];
      assert forall i :: 1 <= i < |s| - |r| ==> s[i] == s[1..][i - 1];
      r
    else s
  }

  /** Drops trailing trimmable characters. */
  function TrimEnd(s: string): (r: string)
    ensures StartsWith(s, r)
    ensures forall i :: |r| <= i < |s| ==> IsTrimmable(s[i])
    ensures |r| == 0 || !IsTrimmable(r[|r| - 1])
    decreases |s|
  {
    if |s| > 0 && IsTrimmable(s[|s| - 1]) then TrimEnd(s[..|s| - 1]) else s
  }

  /** `s.trim()`. */
  function Trim(s: string): string {
    TrimEnd(TrimStart(s))
  }

  /** `s.trim()` is the empty string (falsy) exactly when every character of `s` is
      trimmable. */
  lemma TrimEmptyIffBlank(s: string)
    ensures Trim(s) == "" <==> forall i :: 0 <= i < |s| ==> IsTrimmable(s[i])
  {
    var t := TrimStart(s);
    if !forall i :: 0 <= i < |s| ==> IsTrimmable(s[i]) {
      var k :| 0 <= k < |s| && !IsTrimmable(s[k]);
      assert |t| > 0 && s[|s| - |t|..] == t;
      assert k >= |s| - |t|;
      assert t[k - (|s| - |t|)] == s[k];
    }
  }

  // ---------------------------------------------------------------------------
  // decimal rendering
  // ---------------------------------------------------------------------------

  predicate IsDigit(c: char) {
    '0' <= c <= '9'
  }

  function DigitChar(d: nat): (c: char)
    requires d < 10
    ensures IsDigit(c)
  {
    ('0' as int + d) as char
  }

  function DigitValue(c: char): (d: nat)
    requires IsDigit(c)
    ensures d < 10
  {
    c as int - '0' as int
  }

  /** `${n}` for a non-negative integer: its decimal digits, without leading zeros. */
  function NatToString(n: nat): (s: string)
    ensures |s| >= 1
    ensures forall i :: 0 <= i < |s| ==> IsDigit(s[i])
    ensures |s| > 1 ==> s[0] != '0'
    decreases n
  {
    if n < 10 then [DigitChar(n)] else NatToString(n / 10) + [DigitChar(n % 10)]
  }

  /** The number a non-empty string of decimal digits denotes. */
  function ParseDecimal(s: string): nat
    requires |s| >= 1
    requires forall i :: 0 <= i < |s| ==> IsDigit(s[i])
    decreases |s|
  {
    if |s| == 1 then DigitValue(s[0])
    else ParseDecimal(s[..|s| - 1]) * 10 + DigitValue(s[|s| - 1])
  }

  /** The rendered digits read back as the same number. */
  lemma {:induction false} ParseNatToString(n: nat)
    ensures ParseDecimal(NatToString(n)) == n
    decreases n
  {
    if n >= 10 {
      var s := NatToString(n);
      ParseNatToString(n / 10);
      assert s[..|s| - 1] == NatToString(n / 10);
    }
  }
}

=== FILE: types.dfy ===
/** Values shared by the browser components and the route handlers: optional values, HTTP
    error answers and the browser's `File` record. */
module Types {

  /** A value that may be absent: an optional form field, an undefined `size`. */
  datatype Option<+T> = None | Some(value: T)

  /** An HTTP error answer of a route handler: status code and message. */
  datatype HttpError = HttpError(status: nat, message: string)

  /** Either a successful value or an HTTP error answer. */
  datatype Result<+T> = Ok(value: T) | Err(error: HttpError)

  /** A browser `File`: its name, MIME type (`type`) and size in bytes. Its contents are not
      part of the model. */
  datatype BrowserFile = BrowserFile(name: string, mimeType: string, size: nat)
}

=== FILE: upload_queue.dfy ===
/** The upload section: the queue of files waiting to be uploaded, with the status of each
    (idle, uploading, success, error), the pending archive that opens the archive browser,
    and the icon chosen from a file's extension. The random queue ids (`crypto.randomUUID`)
    are parameters. */
module UploadQueue {
  import opened Types
  import opened Strings
  import opened Seqs
  import ZipSelection

  datatype FileStatus = Idle | Uploading | Success | Error

  /** One queue entry: the file, its status, its progress in percent, its id and the message
      of a failed upload. */
  datatype QueueEntry = QueueEntry(
    file: BrowserFile,
    status: FileStatus,
    progress: int,
    id: string,
    error: Option<string>)

  /** The section's state: the queue and the archive waiting in the archive browser. */
  datatype UploadSection = UploadSection(files: seq<QueueEntry>, zipFile: Option<BrowserFile>)

  /** No two entries share an id. */
  predicate UniqueIds(files: seq<QueueEntry>) {
    forall i, j :: 0 <= i < j < |files| ==> files[i].id != files[j].id
  }

  /** `ids` are pairwise distinct and used by no entry of `files`. */
  predicate FreshIds(ids: seq<string>, files: seq<QueueEntry>) {
    && (forall i, j :: 0 <= i < j < |ids| ==> ids[i] != ids[j])
    && (forall i, k :: 0 <= i < |ids| && 0 <= k < |files| ==> ids[i] != files[k].id)
  }

  /** A freshly queued entry: idle, at progress 0, with no error. */
  function NewEntry(f: BrowserFile, id: string): QueueEntry {
    QueueEntry(f, Idle, 0, id, None)
  }

  // ---------------------------------------------------------------------------
  // adding files
  // ---------------------------------------------------------------------------

  /** `handleZipFile`'s test: the MIME type is `application/zip` or the name ends in
      `.zip`. */
  predicate IsZip(f: BrowserFile) {
    f.mimeType == "application/zip" || EndsWith(f.name, ".zip")
  }

  /** The entries queued for the non-archive inputs, in input order; the i-th input uses the
      i-th id. */
  function Enqueue(newFiles: seq<BrowserFile>, ids: seq<string>): (r: seq<QueueEntry>)
    requires |ids| == |newFiles|
    ensures |r| <= |newFiles|
    ensures forall e :: e in r ==> e.status == Idle && e.progress == 0 && !IsZip(e.file) && e.error.None?
    ensures forall i :: 0 <= i < |newFiles| && !IsZip(newFiles[i]) ==> NewEntry(newFiles[i], ids[i]) in r
    ensures forall e :: e in r ==> exists i :: 0 <= i < |newFiles| && e == NewEntry(newFiles[i], ids[i])
    decreases |newFiles|
  {
    if |newFiles| == 0 then []
    else
      var rest := Enqueue(newFiles[1..], ids[1..]);
      assert forall e :: e in rest ==> exists i :: 1 <= i < |newFiles| && e == NewEntry(newFiles[i], ids[i]) by {
        forall e | e in rest
          ensures exists i :: 1 <= i < |newFiles| && e == NewEntry(newFiles[i], ids[i])
        {
          var i :| 0 <= i < |newFiles[1..]| && e == NewEntry(newFiles[1..][i], ids[1..][i]);
          assert e == NewEntry(newFiles[i + 1], ids[i + 1]);
        }
      }
      assert forall i :: 1 <= i < |newFiles| ==> newFiles[i] == newFiles[1..][i - 1] && ids[i] == ids[1..][i - 1];
      if IsZip(newFiles[0]) then rest else [NewEntry(newFiles[0], ids[0])] + rest
  }

  /** Enqueueing concatenated inputs enqueues each part: input order is kept. */
  lemma {:induction false} EnqueueAppend(a: seq<BrowserFile>, ia: seq<string>, b: seq<BrowserFile>, ib: seq<string>)
    requires |ia| == |a| && |ib| == |b|
    ensures Enqueue(a + b, ia + ib) == Enqueue(a, ia) + Enqueue(b, ib)
    decreases |a|
  {
    if |a| > 0 {
      assert (a + b)[0] == a[0] && (ia + ib)[0] == ia[0];
      assert (a + b)[1..] == a[1..] + b && (ia + ib)[1..] == ia[1..] + ib;
      EnqueueAppend(a[1..], ia[1..], b, ib);
    } else {
      assert a + b == b && ia + ib == ib;
    }
  }

  /** The archive left pending after `handleZipFile` ran over `newFiles` in order: the last
      archive among them, or `current` when there is none. */
  function LastZip(newFiles: seq<BrowserFile>, current: Option<BrowserFile>): (r: Option<BrowserFile>)
    ensures (forall i :: 0 <= i < |newFiles| ==> !IsZip(newFiles[i])) ==> r == current
    ensures (exists i :: 0 <= i < |newFiles| && IsZip(newFiles[i])) ==>
              exists i :: 0 <= i < |newFiles| && IsZip(newFiles[i]) && r == Some(newFiles[i])
                          && forall j :: i < j < |newFiles| ==> !IsZip(newFiles[j])
    decreases |newFiles|
  {
    if |newFiles| == 0 then current
    else if IsZip(newFiles[|newFiles| - 1]) then Some(newFiles[|newFiles| - 1])
    else
      var n := |newFiles| - 1;
      var init := newFiles[..n];
      var r := LastZip(init, current);
      assert forall i :: 0 <= i < |init| ==> init[i] == newFiles[i];
      assert (exists i :: 0 <= i < |newFiles| && IsZip(newFiles[i])) ==>
               exists i :: 0 <= i < |newFiles| && IsZip(newFiles[i]) && r == Some(newFiles[i])
                           && forall j :: i < j < |newFiles| ==> !IsZip(newFiles[j]) by {
        if exists i :: 0 <= i < |newFiles| && IsZip(newFiles[i]) {
          var i :| 0 <= i < |newFiles| && IsZip(newFiles[i]);
          assert i < n && IsZip(init[i]);
          var k :| 0 <= k < |init| && IsZip(init[k]) && r == Some(init[k])
                   && forall j :: k < j < |init| ==> !IsZip(init[j]);
          assert forall j :: k < j < |newFiles| ==> !IsZip(newFiles[j]) by {
            forall j | k < j < |newFiles| ensures !IsZip(newFiles[j]) {
              if j < n {
                assert !IsZip(init[j]);
              }
            }
          }
        }
      }
      r
  }

  /** `addFiles(newFiles)`: archives are diverted to the archive browser (the last one wins)
      and never queued; every other input is appended, in input order, as a new idle entry
      at progress 0; the existing queue is an unchanged prefix. */
  function AddFiles(s: UploadSection, newFiles: seq<BrowserFile>, ids: seq<string>): (r: UploadSection)
    requires |ids| == |newFiles|
    ensures |r.files| >= |s.files| && r.files[..|s.files|] == s.files
    ensures r.files[|s.files|..] == Enqueue(newFiles, ids)
    ensures forall e :: e in r.files[|s.files|..] ==> e.status == Idle && e.progress == 0 && !IsZip(e.file)
    ensures forall i :: 0 <= i < |newFiles| && !IsZip(newFiles[i]) ==> NewEntry(newFiles[i], ids[i]) in r.files
    ensures r.zipFile == LastZip(newFiles, s.zipFile)
    ensures UniqueIds(s.files) && FreshIds(ids, s.files) ==> UniqueIds(r.files)
  {
    var added := Enqueue(newFiles, ids);
    var r := UploadSection(s.files + added, LastZip(newFiles, s.zipFile));
    assert r.files[..|s.files|] == s.files;
    assert r.files[|s.files|..] == added;
    assert UniqueIds(s.files) && FreshIds(ids, s.files) ==> UniqueIds(r.files) by {
      if UniqueIds(s.files) && FreshIds(ids, s.files) {
        EnqueueIdsUnique(newFiles, ids, s.files);
      }
    }
    r
  }

  /** Entries queued with fresh ids keep the ids of the whole queue distinct. */
  lemma {:induction false} EnqueueIdsUnique(newFiles: seq<BrowserFile>, ids: seq<string>, files: seq<QueueEntry>)
    requires |ids| == |newFiles|
    requires UniqueIds(files) && FreshIds(ids, files)
    ensures UniqueIds(files + Enqueue(newFiles, ids))
    decreases |newFiles|
  {
    if |newFiles| > 0 {
      var rest := Enqueue(newFiles[1..], ids[1..]);
      if IsZip(newFiles[0]) {
        assert FreshIds(ids[1..], files);
        EnqueueIdsUnique(newFiles[1..], ids[1..], files);
      } else {
        var files' := files + [NewEntry(newFiles[0], ids[0])];
        assert UniqueIds(files');
        assert FreshIds(ids[1..], files') by {
          forall i, k | 0 <= i < |ids[1..]| && 0 <= k < |files'|
            ensures ids[1..][i] != files'[k].id
          {
            if k < |files| {
              assert files'[k] == files[k];
            }
          }
        }
        EnqueueIdsUnique(newFiles[1..], ids[1..], files');
        assert files + Enqueue(newFiles, ids) == files' + rest;
      }
    }
  }

  /** `removeFile(id)`: every entry with that id is dropped and the others are kept in
      order. */
  function RemoveFile(files: seq<QueueEntry>, id: string): (r: seq<QueueEntry>)
    ensures forall e :: e in r <==> e in files && e.id != id
    ensures (forall i :: 0 <= i < |files| ==> files[i].id != id) ==> r == files
  {
    Filter(files, (e: QueueEntry) => e.id != id)
  }

  /** Removal keeps the relative order of the surviving entries: removing from a
      concatenation removes from each part. */
  lemma RemoveFileAppend(a: seq<QueueEntry>, b: seq<QueueEntry>, id: string)
    ensures RemoveFile(a + b, id) == RemoveFile(a, id) + RemoveFile(b, id)
  {
    FilterAppend(a, b, (e: QueueEntry) => e.id != id);
  }

  /** Removing a file right after adding it restores the queue, provided its id is fresh. */
  lemma RemoveAddedRestores(s: UploadSection, f: BrowserFile, id: string)
    requires !IsZip(f) && forall i :: 0 <= i < |s.files| ==> s.files[i].id != id
    ensures RemoveFile(AddFiles(s, [f], [id]).files, id) == s.files
  {
    var e := NewEntry(f, id);
    assert Enqueue([f], [id]) == [e] by {
      assert [f][1..] == [] && [id][1..] == [];
    }
    RemoveFileAppend(s.files, [e], id);
    assert RemoveFile([e], id) == [] by {
      assert [e][1..] == [];
    }
  }

  // ---------------------------------------------------------------------------
  // uploading
  // ---------------------------------------------------------------------------

  /** The "Upload All Files" button is enabled: some entry is idle. */
  predicate UploadEnabled(files: seq<QueueEntry>) {
    exists i :: 0 <= i < |files| && files[i].status == Idle
  }

  /** `filesToUpload`: the idle entries, in queue order. */
  function IdleEntries(files: seq<QueueEntry>): (r: seq<QueueEntry>)
    ensures forall e :: e in r <==> e in files && e.status == Idle
    ensures |r| == 0 <==> !UploadEnabled(files)
  {
    var r := Filter(files, (e: QueueEntry) => e.status == Idle);
    assert UploadEnabled(files) ==> exists i :: 0 <= i < |files| && files[i] in r;
    assert |r| > 0 ==> r[0] in files && r[0].status == Idle;
    r
  }

  /** Whether an entry's id is the id of one of `batch`. */
  predicate InBatch(e: QueueEntry, batch: seq<QueueEntry>) {
    exists u :: u in batch && u.id == e.id
  }

  /** The queue after `uploadFiles` marks its batch: each entry whose id is the id of an
      entry of the batch becomes uploading. */
  function MarkUploading(files: seq<QueueEntry>, batch: seq<QueueEntry>): (r: seq<QueueEntry>)
    ensures |r| == |files|
    ensures forall i :: 0 <= i < |files| ==>
              (r[i].status == Uploading <==> InBatch(files[i], batch) || files[i].status == Uploading)
    ensures forall i :: 0 <= i < |files| ==>
              r[i].file == files[i].file && r[i].id == files[i].id
              && r[i].progress == files[i].progress && r[i].error == files[i].error
    ensures forall i :: 0 <= i < |files| && !InBatch(files[i], batch) ==> r[i] == files[i]
  {
    seq(|files|, i requires 0 <= i < |files| =>
      if InBatch(files[i], batch) then files[i].(status := Uploading) else files[i])
  }

  /** With distinct ids, marking the idle batch moves exactly the idle entries to uploading
      and leaves every other entry untouched. */
  lemma StartMovesOnlyIdle(files: seq<QueueEntry>)
    requires UniqueIds(files)
    ensures var r := MarkUploading(files, IdleEntries(files));
            forall i :: 0 <= i < |files| ==>
              r[i] == if files[i].status == Idle then files[i].(status := Uploading) else files[i]
  {
    var batch := IdleEntries(files);
    forall i | 0 <= i < |files|
      ensures InBatch(files[i], batch) <==> files[i].status == Idle
    {
      if InBatch(files[i], batch) {
        var u :| u in batch && u.id == files[i].id;
        var j :| 0 <= j < |files| && files[j] == u;
        assert i == j;
      }
    }
  }

  /** An entry after its upload settles: success at 100 percent, or error with the message
      `Upload failed`. */
  function Settled(e: QueueEntry, fails: bool): (r: QueueEntry)
    ensures r.id == e.id && r.file == e.file
    ensures fails ==> r.status == Error && r.error == Some("Upload failed") && r.progress == e.progress
    ensures !fails ==> r.status == Success && r.progress == 100 && r.error == e.error
  {
    if fails then e.(status := Error, error := Some("Upload failed"))
    else e.(status := Success, progress := 100)
  }

  /** Settles every entry carrying `id`, as each completion handler does. */
  function SettleId(files: seq<QueueEntry>, id: string, fails: bool): (r: seq<QueueEntry>)
    ensures |r| == |files|
    ensures forall i :: 0 <= i < |files| && files[i].id != id ==> r[i] == files[i]
    ensures forall i :: 0 <= i < |files| && files[i].id == id ==> r[i] == Settled(files[i], fails)
  {
    seq(|files|, i requires 0 <= i < |files| =>
      if files[i].id == id then Settled(files[i], fails) else files[i])
  }

  /** An entry part-way through an upload run in which the ids in `done` have settled. */
  function Stage(e: QueueEntry, done: set<string>, failures: set<string>): QueueEntry {
    if e.status != Idle then e
    else if e.id in done then Settled(e, e.id in failures)
    else e.(status := Uploading)
  }

  /** Settling one idle entry of the batch advances every entry by one stage. */
  lemma SettleAdvancesStage(files: seq<QueueEntry>, r: seq<QueueEntry>, done: set<string>, u: QueueEntry, failures: set<string>)
    requires UniqueIds(files) && u in files && u.status == Idle
    requires |r| == |files| && forall i :: 0 <= i < |files| ==> r[i] == Stage(files[i], done, failures)
    ensures var r' := SettleId(r, u.id, u.id in failures);
            forall i :: 0 <= i < |files| ==> r'[i] == Stage(files[i], done + {u.id}, failures)
  {
    var j :| 0 <= j < |files| && files[j] == u;
    forall i | 0 <= i < |files| && files[i].id == u.id
      ensures i == j
    {
    }
  }

  /** The end result of a run on one entry: a settled upload if it was idle, otherwise
      untouched. */
  function Uploaded(e: QueueEntry, failures: set<string>): QueueEntry {
    if e.status == Idle then Settled(e, e.id in failures) else e
  }

  /** `uploadFiles()`: with no idle entry the queue is unchanged and the count is 0 (the
      "No files to upload" notice); otherwise the idle entries are marked uploading and then
      settled one by one, in queue order, each failing iff its id is in `failures`; every
      other entry is untouched. `count` is the number announced in the final notice. */
  method UploadFiles(files: seq<QueueEntry>, failures: set<string>) returns (r: seq<QueueEntry>, count: nat)
    requires UniqueIds(files)
    ensures !UploadEnabled(files) ==> r == files && count == 0
    ensures count == |IdleEntries(files)|
    ensures |r| == |files|
    ensures forall i :: 0 <= i < |files| ==> r[i] == Uploaded(files[i], failures)
    ensures forall i :: 0 <= i < |files| && files[i].status == Idle && files[i].id !in failures ==>
              r[i].status == Success && r[i].progress == 100
  {
    var batch := IdleEntries(files);
    count := |batch|;
    if count == 0 {
      r := files;
      forall i | 0 <= i < |files| ensures files[i].status != Idle {
        assert files[i] !in batch;
      }
      return;
    }
    r := SettleBatch(files, failures);
  }

  /** The body of an upload run with a non-empty batch: the idle entries are marked
      uploading, then settled one by one in queue order. */
  method SettleBatch(files: seq<QueueEntry>, failures: set<string>) returns (r: seq<QueueEntry>)
    requires UniqueIds(files)
    ensures |r| == |files|
    ensures forall i :: 0 <= i < |files| ==> r[i] == Uploaded(files[i], failures)
  {
    var batch := IdleEntries(files);
    r := MarkUploading(files, batch);
    StartMovesOnlyIdle(files);
    ghost var done: set<string> := {};
    var k := 0;
    while k < |batch|
      invariant 0 <= k <= |batch|
      invariant |r| == |files|
      invariant forall m :: 0 <= m < k ==> batch[m].id in done
      invariant forall i :: 0 <= i < |files| ==> r[i] == Stage(files[i], done, failures)
    {
      var u := batch[k];
      SettleStep(files, batch, r, done, k, failures);
      PrefixSettled(batch, done, k);
      r := SettleId(r, u.id, u.id in failures);
      done := done + {u.id};
      k := k + 1;
    }
    BatchSettled(files, batch, done);
    RunComplete(files, r, done, failures);
  }

  /** One iteration of the upload run: settling the next batch entry advances every entry
      by one stage. */
  lemma SettleStep(files: seq<QueueEntry>, batch: seq<QueueEntry>, r: seq<QueueEntry>, done: set<string>,
                   k: nat, failures: set<string>)
    requires UniqueIds(files) && batch == IdleEntries(files) && k < |batch|
    requires |r| == |files| && forall i :: 0 <= i < |files| ==> r[i] == Stage(files[i], done, failures)
    ensures var u := batch[k]; var r' := SettleId(r, u.id, u.id in failures);
            forall i :: 0 <= i < |files| ==> r'[i] == Stage(files[i], done + {u.id}, failures)
  {
    assert batch[k] in files && batch[k].status == Idle;
    SettleAdvancesStage(files, r, done, batch[k], failures);
  }

  /** The ids of the first `k + 1` batch entries have settled once the `k`-th has. */
  lemma PrefixSettled(batch: seq<QueueEntry>, done: set<string>, k: nat)
    requires k < |batch| && forall m :: 0 <= m < k ==> batch[m].id in done
    ensures forall m :: 0 <= m < k + 1 ==> batch[m].id in done + {batch[k].id}
  {
    forall m | 0 <= m < k + 1 ensures batch[m].id in done + {batch[k].id} {
      if m < k {
        assert batch[m].id in done;
      }
    }
  }

  /** Once every entry of the idle batch has settled, every idle entry's id has. */
  lemma BatchSettled(files: seq<QueueEntry>, batch: seq<QueueEntry>, done: set<string>)
    requires batch == IdleEntries(files)
    requires forall m :: 0 <= m < |batch| ==> batch[m].id in done
    ensures forall i :: 0 <= i < |files| && files[i].status == Idle ==> files[i].id in done
  {
    forall i | 0 <= i < |files| && files[i].status == Idle
      ensures files[i].id in done
    {
      assert files[i] in batch;
    }
  }

  /** When every idle entry has settled, each entry is at its final stage. */
  lemma RunComplete(files: seq<QueueEntry>, r: seq<QueueEntry>, done: set<string>, failures: set<string>)
    requires |r| == |files| && forall i :: 0 <= i < |files| ==> r[i] == Stage(files[i], done, failures)
    requires forall i :: 0 <= i < |files| && files[i].status == Idle ==> files[i].id in done
    ensures forall i :: 0 <= i < |files| ==> r[i] == Uploaded(files[i], failures)
  {
  }

  /** A progress report from the simulated upload of one entry (`simulateFileUpload`). */
  function SetProgress(files: seq<QueueEntry>, id: string, progress: int): (r: seq<QueueEntry>)
    ensures |r| == |files|
    ensures forall i :: 0 <= i < |files| && files[i].id == id ==>
              r[i].progress == progress && r[i].status == files[i].status
              && r[i].file == files[i].file && r[i].id == id && r[i].error == files[i].error
    ensures forall i :: 0 <= i < |files| && files[i].id != id ==> r[i] == files[i]
  {
    seq(|files|, i requires 0 <= i < |files| =>
      if files[i].id == id then files[i].(progress := progress) else files[i])
  }

  // ---------------------------------------------------------------------------
  // the archive dialog
  // ---------------------------------------------------------------------------

  /** The browser `File` created for a file extracted from an archive: its name and type,
      and the twelve bytes of `"mock content"`. */
  function AsBrowserFile(f: ZipSelection.ExtractedFile): (b: BrowserFile)
    ensures b.name == f.name && b.mimeType == f.mimeType && b.size == |"mock content"|
  {
    BrowserFile(f.name, f.mimeType, 12)
  }

  /** `onExtract`: every extracted file, archives included, is appended as a new idle entry
      at progress 0, in extraction order, and the archive dialog closes. */
  function OnExtract(s: UploadSection, extracted: seq<ZipSelection.ExtractedFile>, ids: seq<string>): (r: UploadSection)
    requires |ids| == |extracted|
    ensures r.zipFile.None?
    ensures |r.files| == |s.files| + |extracted| && r.files[..|s.files|] == s.files
    ensures forall i :: 0 <= i < |extracted| ==>
              r.files[|s.files| + i] == NewEntry(AsBrowserFile(extracted[i]), ids[i])
    ensures UniqueIds(s.files) && FreshIds(ids, s.files) ==> UniqueIds(r.files)
  {
    var added := seq(|extracted|, i requires 0 <= i < |extracted| => NewEntry(AsBrowserFile(extracted[i]), ids[i]));
    var r := UploadSection(s.files + added, None);
    assert r.files[..|s.files|] == s.files;
    assert UniqueIds(s.files) && FreshIds(ids, s.files) ==> UniqueIds(r.files) by {
      if UniqueIds(s.files) && FreshIds(ids, s.files) {
        AppendFreshUnique(s.files, added, ids);
      }
    }
    r
  }

  /** Appending entries that carry fresh, pairwise distinct ids keeps queue ids distinct. */
  lemma AppendFreshUnique(files: seq<QueueEntry>, added: seq<QueueEntry>, ids: seq<string>)
    requires |added| == |ids| && forall i :: 0 <= i < |added| ==> added[i].id == ids[i]
    requires UniqueIds(files) && FreshIds(ids, files)
    ensures UniqueIds(files + added)
  {
    var all := files + added;
    forall i, j | 0 <= i < j < |all| ensures all[i].id != all[j].id {
      if j >= |files| {
        assert all[j].id == ids[j - |files|];
        if i >= |files| {
          assert all[i].id == ids[i - |files|];
        } else {
          assert all[i] == files[i];
        }
      } else {
        assert all[i] == files[i] && all[j] == files[j];
      }
    }
  }

  /** Closing the archive dialog without extracting drops the pending archive only. */
  function CloseZipDialog(s: UploadSection): (r: UploadSection)
    ensures r.zipFile.None? && r.files == s.files
  {
    s.(zipFile := None)
  }

  // ---------------------------------------------------------------------------
  // file icons
  // ---------------------------------------------------------------------------

  const CodeExtensions: seq<string> :=
    [".js", ".jsx", ".ts", ".tsx", ".py", ".java", ".c", ".cpp", ".cs", ".go", ".rb", ".php",
     ".html", ".css", ".json"]

  const ArchiveExtensions: seq<string> := [".zip", ".rar", ".tar", ".gz", ".7z"]

  /** `name.substring(name.lastIndexOf(".")).toLowerCase()`: from the last dot to the end,
      lower-cased; a name without a dot gives the whole name, lower-cased. */
  function Extension(name: string): (ext: string)
    ensures '.' in name ==> |ext| >= 1 && ext[0] == '.' && '.' !in ext[1..]
    ensures '.' !in name ==> ext == ToLower(name)
    ensures EndsWith(ToLower(name), ext)
  {
    var k := LastIndexOf(name, '.');
    ExtensionFromLastDot(name, k);
    ToLower(SubstringFrom(name, k))
  }

  lemma ExtensionFromLastDot(name: string, k: int)
    requires k == LastIndexOf(name, '.')
    ensures var ext := ToLower(SubstringFrom(name, k));
            && ('.' in name ==> |ext| >= 1 && ext[0] == '.' && '.' !in ext[1..])
            && ('.' !in name ==> ext == ToLower(name))
            && EndsWith(ToLower(name), ext)
  {
    if k >= 0 {
      var tail := name[k..];
      ToLowerSuffix(name, k);
      var ext := ToLower(tail);
      assert ext[0] == LowerChar(name[k]) == '.';
      assert '.' !in ext[1..] by {
        forall j | 0 <= j < |ext| - 1 ensures ext[1..][j] != '.' {
          assert ext[1..][j] == LowerChar(tail[j + 1]);
          assert tail[j + 1] == name[k + 1 + j];
        }
      }
    }
  }

  datatype FileIcon = CodeIcon | ArchiveIcon | OtherIcon

  /** No extension is both a code and an archive extension. */
  lemma ExtensionListsDisjoint()
    ensures forall e :: e in CodeExtensions ==> e !in ArchiveExtensions
  {
  }

  /** `getFileIcon(file)`: a code icon for a code extension, an archive icon for an archive
      extension, a plain icon otherwise. */
  function GetFileIcon(f: BrowserFile): (icon: FileIcon)
    ensures icon == CodeIcon <==> Extension(f.name) in CodeExtensions
    ensures icon == ArchiveIcon <==> Extension(f.name) in ArchiveExtensions
    ensures icon == OtherIcon <==> Extension(f.name) !in CodeExtensions && Extension(f.name) !in ArchiveExtensions
  {
    ExtensionListsDisjoint();
    var ext := Extension(f.name);
    if ext in CodeExtensions then CodeIcon
    else if ext in ArchiveExtensions then ArchiveIcon
    else OtherIcon
  }
}

=== FILE: upload_route.dfy ===
/** The upload route: validates the form, derives a timestamped storage name for the file
    and returns the metadata record it would store. The clock (`Date.now`), the user id and
    the random record id are parameters; the storage calls are not part of the model. */
module UploadRoute {
  import opened Types
  import opened Strings
  import opened StoragePaths

  /** The form fields the route reads: `file` and `folderId`. */
  datatype UploadRequest = UploadRequest(file: Option<BrowserFile>, folderId: Option<string>)

  /** The metadata record of a stored file. */
  datatype FileMetadata = FileMetadata(
    name: string,
    path: string,
    size: nat,
    mimeType: string,
    userId: string,
    folderId: Option<string>)

  const NoFileError := HttpError(400, "No file provided")

  /** `${name.split(".")[0]}-${timestamp}.${name.split(".").pop()}`: the name up to its first
      dot, a dash, the timestamp, a dot and the name after its last dot. Middle segments are
      dropped, and a name without a dot appears twice. The result has exactly one dot, so
      its last dot-segment is the original extension and its first one ends in the
      timestamp. */
  function TimestampedName(name: string, timestamp: nat): (r: string)
    ensures var base, ext := FirstSegment(name, '.'), LastSegment(name, '.');
            r == base + "-" + NatToString(timestamp) + "." + ext
    ensures LastSegment(r, '.') == LastSegment(name, '.')
    ensures FirstSegment(r, '.') == FirstSegment(name, '.') + "-" + NatToString(timestamp)
    ensures '.' !in name ==> r == name + "-" + NatToString(timestamp) + "." + name
  {
    var base, ext := FirstSegment(name, '.'), LastSegment(name, '.');
    var stamped := base + "-" + NatToString(timestamp);
    assert '.' !in stamped by {
      assert forall i :: 0 <= i < |NatToString(timestamp)| ==> IsDigit(NatToString(timestamp)[i]);
    }
    var r := stamped + "." + ext;
    assert Join([stamped, ext], '.') == r;
    SplitJoin([stamped, ext], '.');
    r
  }

  /** The route's answer: 400 when the form has no file; otherwise the metadata, which keeps
      the original name, size and type, stores the file under its timestamped name in the
      user's folder (`root` when no folder is given), and leaves `folderId` undefined when
      none is given. */
  function HandleUpload(req: UploadRequest, userId: string, timestamp: nat): (r: Result<FileMetadata>)
    ensures req.file.None? <==> r == Err(NoFileError)
    ensures r.Ok? <==> req.file.Some?
    ensures req.file.Some? ==>
              var f, m := req.file.value, r.value;
              && m.name == f.name && m.size == f.size && m.mimeType == f.mimeType
              && m.userId == userId
              && m.path == StoragePath(userId, req.folderId, TimestampedName(f.name, timestamp))
              && (m.folderId.None? <==> req.folderId.None? || req.folderId.value == "")
              && (req.folderId.Some? && req.folderId.value != "" ==> m.folderId == req.folderId)
  {
    match req.file
    case None => Err(NoFileError)
    case Some(f) =>
      var fileName := TimestampedName(f.name, timestamp);
      Ok(FileMetadata(f.name, StoragePath(userId, req.folderId, fileName), f.size, f.mimeType,
                      userId, FolderField(req.folderId)))
  }

  /** Middle segments are dropped: a name `B.M.E` whose three segments hold no dot is
      stored as `B-<timestamp>.E`. */
  lemma MiddleSegmentsDropped(base: string, mid: string, ext: string, timestamp: nat)
    requires '.' !in base && '.' !in mid && '.' !in ext
    ensures TimestampedName(base + "." + mid + "." + ext, timestamp)
            == base + "-" + NatToString(timestamp) + "." + ext
  {
    var name := base + "." + mid + "." + ext;
    assert name[..|base|] == base;
    FirstSegmentAt(name, '.', |base|);
    assert name[|base| + 1 + |mid| + 1..] == ext;
    LastSegmentAt(name, '.', |base| + 1 + |mid|);
  }

  /** When the user id, folder and file name hold no slash, the stored object's last path
      segment is its timestamped name. */
  lemma StoredUnderTimestampedName(req: UploadRequest, userId: string, timestamp: nat)
    requires req.file.Some?
    requires '/' !in userId && '/' !in FolderSegment(req.folderId) && '/' !in req.file.value.name
    ensures var r := HandleUpload(req, userId, timestamp);
            r.Ok? && LastSegment(r.value.path, '/') == TimestampedName(req.file.value.name, timestamp)
  {
    var name := req.file.value.name;
    var fileName := TimestampedName(name, timestamp);
    var digits := NatToString(timestamp);
    assert '/' !in fileName by {
      assert forall i :: 0 <= i < |digits| ==> IsDigit(digits[i]);
      assert '/' !in FirstSegment(name, '.') by {
        assert StartsWith(name, FirstSegment(name, '.'));
      }
      assert '/' !in LastSegment(name, '.') by {
        assert EndsWith(name, LastSegment(name, '.'));
        assert forall i :: 0 <= i < |LastSegment(name, '.')| ==>
          LastSegment(name, '.')[i] == name[|name| - |LastSegment(name, '.')| + i];
      }
    }
    StoragePathSegments(userId, req.folderId, fileName);
  }
}

=== FILE: zip_selection.dfy ===
/** The archive browser: the listing of an archive as a tree of entries, the set of selected
    entry paths and how a checkbox toggle changes it, the pre-order lookup of the selected
    entries, and the mock extraction of the selected paths into named, typed files.

    The selection is a JavaScript `Set<string>`, whose iteration order is insertion order
    and decides the order of the extracted files. It is modelled as a duplicate-free
    sequence: adding appends, deleting keeps the remaining members in order. */
module ZipSelection {
  import opened Types
  import opened Strings
  import Sizes
  import Expansion
  import opened Seqs

  datatype EntryKind = File | Directory

  /** One entry of the archive listing. A file has no children; the source's optional
      `children` array, absent or empty, is traversed the same way and is an empty
      sequence here. */
  datatype ZipEntry = ZipEntry(
    name: string,
    path: string,
    kind: EntryKind,
    size: Option<nat>,
    children: seq<ZipEntry>)

  /** A listing whose child paths extend their parent's path by a slash and their name. */
  ghost predicate WellFormed(e: ZipEntry)
    decreases e
  {
    forall i :: 0 <= i < |e.children| ==>
      e.children[i].path == e.path + "/" + e.children[i].name && WellFormed(e.children[i])
  }

  /** Every entry of a listing, each parent before its children and siblings in order. */
  function PreOrder(entries: seq<ZipEntry>): seq<ZipEntry>
    decreases entries
  {
    if |entries| == 0 then []
    else [entries[0]] + PreOrder(entries[0].children) + PreOrder(entries[1..])
  }

  // ---------------------------------------------------------------------------
  // the selection
  // ---------------------------------------------------------------------------

  /** Selected entry paths in insertion order. */
  type Selection = seq<string>

  /** Whether deselecting the entry at `path` removes the member `p`: the path itself and,
      for a directory, every member that begins with `path + "/"`. The test is a prefix test
      on the path string followed by a slash, so a sibling such as `src-backup` of `src` is
      not covered. */
  predicate Covered(p: string, path: string, kind: EntryKind) {
    p == path || (kind == Directory && StartsWith(p, path + "/"))
  }

  /** The test `toggleSelectEntry` keeps a member by when deselecting `path`. */
  function Uncovered(path: string, kind: EntryKind): string -> bool {
    p => !Covered(p, path, kind)
  }

  /** The selection with every member covered by `path` deleted, the rest in order. */
  function RemoveCovered(sel: Selection, path: string, kind: EntryKind): (r: Selection)
    ensures forall p :: p in r <==> p in sel && !Covered(p, path, kind)
    ensures (forall i :: 0 <= i < |sel| ==> !Covered(sel[i], path, kind)) ==> r == sel
    ensures Distinct(sel) ==> Distinct(r)
  {
    var r := Filter(sel, Uncovered(path, kind));
    assert Distinct(sel) ==> Distinct(r) by {
      if Distinct(sel) {
        FilterDistinct(sel, Uncovered(path, kind));
      }
    }
    r
  }

  /** Deleting from a concatenation deletes from each part: members keep their order. */
  lemma RemoveCoveredAppend(a: Selection, b: Selection, path: string, kind: EntryKind)
    ensures RemoveCovered(a + b, path, kind) == RemoveCovered(a, path, kind) + RemoveCovered(b, path, kind)
  {
    FilterAppend(a, b, Uncovered(path, kind));
  }

  /** `toggleSelectEntry(path, type)`: a selected path is deselected, with every member it
      covers; an unselected path, file or directory, is added on its own at the end, with no
      cascade to the directory's contents. */
  function ToggleSelectEntry(sel: Selection, path: string, kind: EntryKind): (r: Selection)
    ensures path in sel ==> forall p :: p in r <==> p in sel && !Covered(p, path, kind)
    ensures path in sel && kind == File ==> forall p :: p in r <==> p in sel && p != path
    ensures path !in sel ==> |r| == |sel| + 1 && r[..|sel|] == sel && r[|sel|] == path
    ensures path !in sel ==> forall p :: p in r <==> p in sel || p == path
    ensures Distinct(sel) ==> Distinct(r)
  {
    if path in sel then RemoveCovered(sel, path, kind)
    else
      var r := sel + [path];
      assert r[..|sel|] == sel;
      r
  }

  /** Toggling a file twice restores the selected paths; when the file was not selected, it
      restores the selection exactly, order included. */
  lemma {:induction false} ToggleFileTwice(sel: Selection, path: string)
    ensures var r := ToggleSelectEntry(ToggleSelectEntry(sel, path, File), path, File);
            forall p :: p in r <==> p in sel
    ensures path !in sel ==> ToggleSelectEntry(ToggleSelectEntry(sel, path, File), path, File) == sel
  {
    if path !in sel {
      var once := ToggleSelectEntry(sel, path, File);
      assert once == sel + [path];
      RemoveCoveredAppend(sel, [path], path, File);
      assert RemoveCovered([path], path, File) == [];
      assert forall i :: 0 <= i < |sel| ==> !Covered(sel[i], path, File);
    }
  }

  /** Deselecting `src` keeps `src-backup/file.ts`: the cascade is a prefix test on
      `src/`, not on `src`. */
  lemma DeselectKeepsSiblingWithSharedPrefix()
    ensures ToggleSelectEntry(["src", "src/index.ts", "src-backup/file.ts"], "src", Directory)
            == ["src-backup/file.ts"]
  {
    var sel: Selection := ["src", "src/index.ts", "src-backup/file.ts"];
    assert Covered("src/index.ts", "src", Directory) by {
      assert "src/index.ts"[..4] == "src/";
    }
    assert !Covered("src-backup/file.ts", "src", Directory) by {
      assert "src-backup/file.ts"[3] == '-';
      assert ("src" + "/")[3] == '/';
    }
    assert sel[1..][1..] == ["src-backup/file.ts"];
  }

  /** Every entry below a directory has a path beginning with that directory's path and a
      slash, so deselecting a directory of a well-formed listing deselects its whole
      subtree. */
  lemma {:induction false} SubtreePathsExtend(entries: seq<ZipEntry>, prefix: string)
    requires forall i :: 0 <= i < |entries| ==> StartsWith(entries[i].path, prefix) && WellFormed(entries[i])
    ensures forall d :: d in PreOrder(entries) ==> StartsWith(d.path, prefix)
    decreases entries
  {
    if |entries| > 0 {
      var e := entries[0];
      forall i | 0 <= i < |e.children|
        ensures StartsWith(e.children[i].path, prefix) && WellFormed(e.children[i])
      {
        var c := e.children[i];
        assert c.path == e.path + "/" + c.name;
        assert prefix <= e.path;
        assert c.path[..|prefix|] == e.path[..|prefix|];
      }
      SubtreePathsExtend(e.children, prefix);
      SubtreePathsExtend(entries[1..], prefix);
    }
  }

  /** Deselecting a selected directory of a well-formed listing removes the path of every
      entry below it. */
  lemma DeselectDirectoryClearsSubtree(e: ZipEntry, sel: Selection)
    requires WellFormed(e) && e.kind == Directory && e.path in sel
    ensures e.path !in ToggleSelectEntry(sel, e.path, Directory)
    ensures forall d :: d in PreOrder(e.children) ==> d.path !in ToggleSelectEntry(sel, e.path, Directory)
  {
    forall i | 0 <= i < |e.children|
      ensures StartsWith(e.children[i].path, e.path + "/") && WellFormed(e.children[i])
    {
      var c := e.children[i];
      assert c.path == (e.path + "/") + c.name;
    }
    SubtreePathsExtend(e.children, e.path + "/");
  }

  // ---------------------------------------------------------------------------
  // finding the selected entries
  // ---------------------------------------------------------------------------

  /** `findSelectedEntries(entries, selectedPaths)`: a pre-order walk that keeps each entry
      whose path is selected. Selected paths that name no entry contribute nothing. */
  function FindSelectedEntries(entries: seq<ZipEntry>, selected: Selection): (r: seq<ZipEntry>)
    ensures forall x :: x in r ==> x in PreOrder(entries) && x.path in selected
    ensures forall x :: x in PreOrder(entries) && x.path in selected ==> x in r
    decreases entries
  {
    if |entries| == 0 then []
    else
      (if entries[0].path in selected then [entries[0]] else [])
      + FindSelectedEntries(entries[0].children, selected)
      + FindSelectedEntries(entries[1..], selected)
  }

  /** The entries of a sequence whose path is selected, in order. */
  function KeepSelected(xs: seq<ZipEntry>, selected: Selection): seq<ZipEntry>
    decreases |xs|
  {
    if |xs| == 0 then []
    else (if xs[0].path in selected then [xs[0]] else []) + KeepSelected(xs[1..], selected)
  }

  lemma {:induction false} KeepSelectedAppend(a: seq<ZipEntry>, b: seq<ZipEntry>, selected: Selection)
    ensures KeepSelected(a + b, selected) == KeepSelected(a, selected) + KeepSelected(b, selected)
    decreases |a|
  {
    if |a| > 0 {
      assert (a + b)[0] == a[0];
      assert (a + b)[1..] == a[1..] + b;
      KeepSelectedAppend(a[1..], b, selected);
    } else {
      assert a + b == b;
    }
  }

  /** The walk returns exactly the pre-order listing filtered by the selection, so the
      result is in pre-order: a parent before its children, siblings in order. */
  lemma {:induction false} FindSelectedIsFilteredPreOrder(entries: seq<ZipEntry>, selected: Selection)
    ensures FindSelectedEntries(entries, selected) == KeepSelected(PreOrder(entries), selected)
    decreases entries
  {
    if |entries| > 0 {
      var e := entries[0];
      FindSelectedIsFilteredPreOrder(e.children, selected);
      FindSelectedIsFilteredPreOrder(entries[1..], selected);
      KeepSelectedAppend([e], PreOrder(e.children), selected);
      KeepSelectedAppend([e] + PreOrder(e.children), PreOrder(entries[1..]), selected);
      assert KeepSelected([e], selected) == (if e.path in selected then [e] else []) by {
        assert [e][1..] == [];
      }
    }
  }

  // ---------------------------------------------------------------------------
  // extraction
  // ---------------------------------------------------------------------------

  /** A mock extracted file: the name it is created with and its MIME type. */
  datatype ExtractedFile = ExtractedFile(name: string, mimeType: string)

  /** The MIME type the archive browser gives an extracted file, by the suffix of its name. */
  function MimeForName(name: string): (m: string)
    ensures m == "application/json" <==> EndsWith(name, ".json")
    ensures m == "text/markdown" <==> !EndsWith(name, ".json") && EndsWith(name, ".md")
    ensures m == "text/plain" <==> !EndsWith(name, ".json") && !EndsWith(name, ".md")
  {
    if EndsWith(name, ".json") then "application/json"
    else if EndsWith(name, ".md") then "text/markdown"
    else "text/plain"
  }

  /** The file extracted for one selected path: named by its last `/` segment. */
  function Extracted(path: string): ExtractedFile {
    var name := LastSegment(path, '/');
    ExtractedFile(name, MimeForName(name))
  }

  /** The selected paths `extractFiles` keeps: those not ending in `/`, in selection
      order. */
  function KeptPaths(selected: Selection): Selection {
    Filter(selected, NotDirectoryPath())
  }

  /** The test `extractFiles` applies to a selected path: it does not end in `/`. */
  function NotDirectoryPath(): string -> bool {
    p => !EndsWith(p, "/")
  }

  /** `extractFiles`: the selected paths not ending in `/`, in selection order, each turned
      into a file named by its last segment. */
  function ExtractFiles(selected: Selection): (files: seq<ExtractedFile>)
    ensures |files| == |KeptPaths(selected)|
    ensures forall i :: 0 <= i < |files| ==> files[i] == Extracted(KeptPaths(selected)[i])
    ensures forall f :: f in files ==> '/' !in f.name && f.mimeType == MimeForName(f.name)
    ensures forall p :: p in selected && !EndsWith(p, "/") ==> Extracted(p) in files
    ensures forall f :: f in files ==> exists p :: p in selected && !EndsWith(p, "/") && f == Extracted(p)
  {
    var kept := KeptPaths(selected);
    KeptPathsMembers(selected);
    ExtractedNamesWellFormed(kept);
    ExtractedCovers(kept);
    ExtractedFrom(kept);
    ExtractedEach(kept)
  }

  /** The files of `paths`, one per path, in order. */
  function ExtractedEach(paths: Selection): seq<ExtractedFile> {
    seq(|paths|, i requires 0 <= i < |paths| => Extracted(paths[i]))
  }

  /** The kept paths are exactly the selected paths not ending in `/`. */
  lemma KeptPathsMembers(selected: Selection)
    ensures forall p :: p in KeptPaths(selected) <==> p in selected && !EndsWith(p, "/")
  {
    assert forall p :: NotDirectoryPath()(p) == !EndsWith(p, "/");
  }

  /** An extracted file's name has no `/` and its type follows its suffix. */
  lemma ExtractedNamesWellFormed(paths: Selection)
    ensures forall f :: f in ExtractedEach(paths) ==> '/' !in f.name && f.mimeType == MimeForName(f.name)
  {
    forall f | f in ExtractedEach(paths)
      ensures '/' !in f.name && f.mimeType == MimeForName(f.name)
    {
      var i :| 0 <= i < |paths| && ExtractedEach(paths)[i] == f;
    }
  }

  /** Every path yields its file. */
  lemma ExtractedCovers(paths: Selection)
    ensures forall p :: p in paths ==> Extracted(p) in ExtractedEach(paths)
  {
    forall p | p in paths
      ensures Extracted(p) in ExtractedEach(paths)
    {
      var i :| 0 <= i < |paths| && paths[i] == p;
      assert ExtractedEach(paths)[i] == Extracted(p);
    }
  }

  /** Every file comes from one of the paths. */
  lemma ExtractedFrom(paths: Selection)
    ensures forall f :: f in ExtractedEach(paths) ==> exists p :: p in paths && f == Extracted(p)
  {
    forall f | f in ExtractedEach(paths)
      ensures exists p :: p in paths && f == Extracted(p)
    {
      var i :| 0 <= i < |paths| && ExtractedEach(paths)[i] == f;
      assert paths[i] in paths;
    }
  }

  /** Paths of entries in a listing never end in `/`, so selecting a directory and
      extracting creates a file named after the directory: `src` becomes a plain-text file
      called `src`. */
  lemma DirectoryExtractedAsFile()
    ensures var src := ZipEntry("src", "src", Directory, None, []);
            src in PreOrder([src]) && src.kind == Directory
            && ExtractFiles(ToggleSelectEntry([], src.path, src.kind)) == [ExtractedFile("src", "text/plain")]
  {
    var src := ZipEntry("src", "src", Directory, None, []);
    assert PreOrder([src]) == [src] + PreOrder([]) + PreOrder([src][1..]);
    var sel := ToggleSelectEntry([], src.path, src.kind);
    assert sel == ["src"];
    assert !EndsWith("src", "/");
    assert NotDirectoryPath()("src");
    assert KeptPaths(sel) == ["src"] by {
      assert sel[1..] == [];
    }
    assert LastSegment("src", '/') == "src";
    assert !EndsWith("src", ".json") && !EndsWith("src", ".md");
    assert Extracted("src") == ExtractedFile("src", "text/plain");
  }

  /** Whether `p` is the path of a file entry of the listing. */
  predicate NamesFile(entries: seq<ZipEntry>, p: string) {
    exists e :: e in PreOrder(entries) && e.kind == File && e.path == p
  }

  /** The test the corrected extraction adds: the path names a file entry. */
  function NamesFileIn(entries: seq<ZipEntry>): string -> bool {
    p => NamesFile(entries, p)
  }

  /** Extraction works path by path: extracting a concatenation of selections
      concatenates their files. */
  lemma ExtractFilesAppend(a: Selection, b: Selection)
    ensures ExtractFiles(a + b) == ExtractFiles(a) + ExtractFiles(b)
  {
    var fa, fb, fab := ExtractFiles(a), ExtractFiles(b), ExtractFiles(a + b);
    var ka, kb := KeptPaths(a), KeptPaths(b);
    FilterAppend(a, b, NotDirectoryPath());
    assert KeptPaths(a + b) == ka + kb;
    assert |fab| == |fa + fb|;
    forall i | 0 <= i < |fab|
      ensures fab[i] == (fa + fb)[i]
    {
      if i < |fa| {
        assert (ka + kb)[i] == ka[i];
      } else {
        assert (ka + kb)[i] == kb[i - |fa|];
      }
    }
  }

  /** Extraction restricted to file entries: the extraction as written, applied to the
      selected paths that name a file entry of the listing, so files stay in selection
      order and a directory yields nothing. */
  function ExtractSelectedFiles(entries: seq<ZipEntry>, selected: Selection): (files: seq<ExtractedFile>)
    ensures |files| <= |selected|
    ensures forall f :: f in files ==>
              exists e :: e in PreOrder(entries) && e.kind == File && e.path in selected && !EndsWith(e.path, "/")
                          && f == Extracted(e.path)
    ensures forall e :: e in PreOrder(entries) && e.kind == File && e.path in selected && !EndsWith(e.path, "/") ==>
              Extracted(e.path) in files
  {
    var paths := Filter(selected, NamesFileIn(entries));
    var files := ExtractFiles(paths);
    assert forall f :: f in files ==>
             exists e :: e in PreOrder(entries) && e.kind == File && e.path in selected && !EndsWith(e.path, "/")
                         && f == Extracted(e.path) by {
      forall f | f in files
        ensures exists e :: e in PreOrder(entries) && e.kind == File && e.path in selected && !EndsWith(e.path, "/")
                            && f == Extracted(e.path)
      {
        var p :| p in paths && !EndsWith(p, "/") && f == Extracted(p);
        assert NamesFile(entries, p);
        var e :| e in PreOrder(entries) && e.kind == File && e.path == p;
      }
    }
    assert forall e :: e in PreOrder(entries) && e.kind == File && e.path in selected && !EndsWith(e.path, "/") ==>
             e.path in paths;
    files
  }

  /** The corrected extraction also works path by path, so its files follow selection
      order: the files of an earlier part of the selection come before those of a later
      part. */
  lemma ExtractSelectedFilesAppend(entries: seq<ZipEntry>, a: Selection, b: Selection)
    ensures ExtractSelectedFiles(entries, a + b)
            == ExtractSelectedFiles(entries, a) + ExtractSelectedFiles(entries, b)
  {
    FilterAppend(a, b, NamesFileIn(entries));
    ExtractFilesAppend(Filter(a, NamesFileIn(entries)), Filter(b, NamesFileIn(entries)));
  }

  /** No directory entry yields a file in the corrected extraction: selecting the directory
      `src` extracts nothing. */
  lemma SelectedDirectoryNotExtracted()
    ensures var src := ZipEntry("src", "src", Directory, None, []);
            ExtractSelectedFiles([src], ["src"]) == []
  {
    var src := ZipEntry("src", "src", Directory, None, []);
    assert PreOrder([src]) == [src] + PreOrder([]) + PreOrder([src][1..]);
    assert !NamesFile([src], "src");
  }

  /** When every selected path names a file entry of the listing, the corrected extraction
      yields exactly the files of the extraction as written, in the same order. */
  lemma CorrectionAgreesOnFileSelections(entries: seq<ZipEntry>, selected: Selection)
    requires forall i :: 0 <= i < |selected| ==> NamesFile(entries, selected[i])
    ensures ExtractSelectedFiles(entries, selected) == ExtractFiles(selected)
  {
    assert forall i :: 0 <= i < |selected| ==> NamesFileIn(entries)(selected[i]);
    assert Filter(selected, NamesFileIn(entries)) == selected;
  }

  // ---------------------------------------------------------------------------
  // the browser state
  // ---------------------------------------------------------------------------

  /** The state the archive browser keeps: the listing (empty until analysed), the expanded
      directories, the selection and whether an extraction is running. */
  datatype Browser = Browser(
    contents: seq<ZipEntry>,
    expanded: Expansion.ExpansionMap,
    selected: Selection,
    extracting: bool)

  /** The "Extract Selected" button is enabled. */
  predicate CanExtract(b: Browser) {
    |b.selected| != 0 && !b.extracting
  }

  /** The "Clear Selection" button is enabled. */
  predicate CanClear(b: Browser) {
    |b.selected| != 0
  }

  /** "Clear Selection": the selection becomes empty and nothing else changes, which
      disables both extraction and clearing. */
  function ClearSelection(b: Browser): (r: Browser)
    ensures forall p :: p !in r.selected
    ensures !CanExtract(r) && !CanClear(r)
    ensures ExtractFiles(r.selected) == []
    ensures r.contents == b.contents && r.expanded == b.expanded && r.extracting == b.extracting
  {
    b.(selected := [])
  }

  /** What "Extract Selected" hands to the upload section: the selected entries of the
      listing, in pre-order, and one file per selected file entry (the corrected
      extraction). */
  datatype Extraction = Extraction(entries: seq<ZipEntry>, files: seq<ExtractedFile>)

  /** `extractFiles()`, with directories no longer extracted as files. */
  function ExtractSelection(b: Browser): (x: Extraction)
    ensures forall e :: e in x.entries <==> e in PreOrder(b.contents) && e.path in b.selected
    ensures x.entries == KeepSelected(PreOrder(b.contents), b.selected)
    ensures forall f :: f in x.files ==> exists e :: e in x.entries && e.kind == File && f == Extracted(e.path)
    ensures forall e :: e in x.entries && e.kind == File && !EndsWith(e.path, "/") ==> Extracted(e.path) in x.files
    ensures (forall i :: 0 <= i < |b.selected| ==> NamesFile(b.contents, b.selected[i])) ==>
              x.files == ExtractFiles(b.selected)
  {
    var found := FindSelectedEntries(b.contents, b.selected);
    FindSelectedIsFilteredPreOrder(b.contents, b.selected);
    var files := ExtractSelectedFiles(b.contents, b.selected);
    assert (forall i :: 0 <= i < |b.selected| ==> NamesFile(b.contents, b.selected[i])) ==>
             files == ExtractFiles(b.selected) by {
      if forall i :: 0 <= i < |b.selected| ==> NamesFile(b.contents, b.selected[i]) {
        CorrectionAgreesOnFileSelections(b.contents, b.selected);
      }
    }
    Extraction(found, files)
  }

  /** A checkbox click on an entry of the listing. */
  function ToggleEntry(b: Browser, e: ZipEntry): (r: Browser)
    ensures r.contents == b.contents && r.expanded == b.expanded && r.extracting == b.extracting
    ensures e.path in r.selected <==> e.path !in b.selected
    ensures e.path in b.selected ==>
              forall p :: p in r.selected <==> p in b.selected && !Covered(p, e.path, e.kind)
    ensures e.path !in b.selected ==> r.selected == b.selected + [e.path]
    ensures e.path !in b.selected ==> CanClear(r)
    ensures e.path !in b.selected && !b.extracting ==> CanExtract(r)
    ensures (forall p :: p in b.selected ==> Covered(p, e.path, e.kind)) ==>
              (e.path in b.selected <==> !CanClear(r) && !CanExtract(r))
    ensures Distinct(b.selected) ==> Distinct(r.selected)
  {
    var sel := ToggleSelectEntry(b.selected, e.path, e.kind);
    assert |sel| != 0 ==> sel[0] in sel;
    b.(selected := sel)
  }

  /** A click on a directory's chevron. */
  function ToggleDirectory(b: Browser, path: string): (r: Browser)
    ensures Expansion.IsExpanded(r.expanded, path) <==> !Expansion.IsExpanded(b.expanded, path)
    ensures forall k :: k != path ==> (Expansion.IsExpanded(r.expanded, k) <==> Expansion.IsExpanded(b.expanded, k))
    ensures r.selected == b.selected && r.contents == b.contents && r.extracting == b.extracting
  {
    b.(expanded := Expansion.ToggleFolder(b.expanded, path))
  }

  /** `formatFileSize(entry.size)`: empty exactly when the size is undefined, otherwise
      labelled in the unit the size falls in. */
  function FormatEntrySize(size: Option<nat>): (r: string)
    ensures r == "" <==> size.None?
    ensures size.Some? ==> (Sizes.UnitFor(size.value) == Sizes.Bytes <==> EndsWith(r, " B"))
    ensures size.Some? ==> (Sizes.UnitFor(size.value) == Sizes.Kilobytes <==> EndsWith(r, " KB"))
    ensures size.Some? ==> (Sizes.UnitFor(size.value) == Sizes.Megabytes <==> EndsWith(r, " MB"))
  {
    match size
    case None => ""
    case Some(bytes) => Sizes.FormatFileSize(bytes)
  }
}
